=== FILE: README.md ===
# GRIDMARKT trading core in Dafny

GRIDMARKT is a paper-trading front-end. It starts a session with 10000 in
cash and five seeded instruments. Each instrument has a synthetic intraday
chart. Market-data refreshes merge quotes into the watch-list, and a search
adds an instrument that is not listed yet. A buy or sell dialog gates each
order before the ledger applies it. The portfolio screen values the holdings
at the listed prices.

This project models that core and proves what it promises:

- `types.dfy` (module `Types`): the records. These are the instrument
  (`Stock`) with its chart `Sample`s, the `Position`, the partial `Quote` of
  a refresh, the `OrderType`, and `Option`.
- `strings.dfy` (module `Strings`): the string primitives the core relies on.
  These are ASCII `toUpperCase`, the blank test `!s.trim()`, and the decimal
  rendering inside the chart's time labels.
- `constants.dfy` (module `Constants`): the chart generator and the seed
  watch-list.
  - `generateHistory` is an imperative method with nested loops, proved
    against the functional chart `HistoryOf`.
  - The calls to `Math.random` become a supplied sequence of draws.
- `ledger.dfy` (module `Ledger`): the portfolio ledger. It has the list
  operations of `executeTrade` and `getOwnedQuantity`, the well-formedness
  invariant, and the class `Ledger` whose `Buy`, `Sell` and `ExecuteTrade`
  update `cash` and `positions` in place.
- `registry.dfy` (module `Registry`): the quote merge of `refreshMarketData`
  and the add-if-absent search of `handleSearchSubmit`.
- `portfolio_view.dfy` (module `PortfolioView`): the valuation.
  - It covers `getStockPrice`, `totalEquity`, `totalValue` and the per-row
    profit and loss.
  - It proves that an accepted buy or sell at the listed price leaves the
    net liquidation value unchanged.
- `trade_modal.dfy` (module `TradeModal`): the order dialog's `canExecute`
  gate. It proves that the gate, wired as the app wires it, enables exactly
  the orders of positive quantity that the ledger accepts. A zero-quantity
  buy, which the ledger alone would accept, is never enabled.

Prices and amounts are modelled as `real`. Quantities are modelled as `int`.

## Model

| member | source | states |
|---|---|---|
| Ledger.Ledger.constructor | App.tsx:32-33 | A session opens with cash 10000 and no positions, and the ledger invariant holds. |
| Ledger.Ledger.Buy | App.tsx:135-150 | A buy is accepted exactly when `cost > cash` is false. An accepted buy debits exactly quantity times price and sets the positions to `Bought`. A rejected buy changes nothing. The invariant is kept: cash is not negative, there is one position per symbol, quantities are positive and average costs are not negative. |
| Ledger.Ledger.Sell | App.tsx:151-165 | A sell is accepted exactly when a position is held with at least the quantity. An accepted sell credits the proceeds and sets the positions to `Sold`. A rejected sell changes nothing. The invariant is kept. |
| Ledger.Ledger.ExecuteTrade | App.tsx:132-167 | With no selected instrument nothing happens. Otherwise the order side selects the buy or the sell branch, priced at the instrument's price. A rejection leaves cash and positions unchanged. |
| Ledger.RunScenario | App.tsx:132-167 | Starting from a fresh ledger, a buy of 10 at 100, a buy of 5 at 110 and a sell of 15 at 120 end with cash 10250 and no positions. |
| Ledger.ThreeTradeScenario | App.tsx:136-164 | The same trades on values. Both buys pass the affordability test, with cash going 10000, 9000, 8450; a further buy of 77 at 110 would fail it. The average cost becomes 1550/15. The sell of 15 passes the holding test (16 would fail) and deletes the position, and the proceeds bring cash to 10250. |
| Ledger.CanAfford | App.tsx:136-137 | Defines the buy test: the order is rejected when quantity times price exceeds the cash. Its meaning is carried by `Ledger.Ledger.Buy` and `TradeModal.GateMatchesLedger`. |
| Ledger.CanDeliver | App.tsx:153-154 | Defines the sell test: the order is rejected when nothing is held or the holding is smaller than the quantity. Its meaning is carried by `Ledger.Ledger.Sell` and `TradeModal.GateMatchesLedger`. |
| Ledger.Bought | App.tsx:141-149 | Defines the positions after an accepted buy. Its properties are proved by `Ledger.BoughtAt`, `Ledger.BoughtHolding`, `Ledger.BoughtWellFormed` and `Ledger.BoughtOthers`. |
| Ledger.Sold | App.tsx:159-164 | Defines the positions after an accepted sell. Its properties are proved by `Ledger.SoldAt`, `Ledger.SoldHolding`, `Ledger.SoldWellFormed` and `Ledger.SoldOthers`. |
| Ledger.Find | App.tsx:142 | `find` by symbol returns a position of the list holding that symbol. It is `None` exactly when no position holds it. |
| Ledger.FindAt | App.tsx:142 | With one position per symbol, `find` returns the one position that holds the symbol. |
| Ledger.FindSame | App.tsx:142 | With one position per symbol, `find` depends only on the positions that hold that symbol. |
| Ledger.OwnedQuantity | App.tsx:169-171 | On a well-formed list the reported quantity is not negative. It is 0 exactly when no position holds the symbol. |
| Ledger.OwnedQuantityAt | App.tsx:169-171 | For a held symbol the reported quantity is that position's quantity. |
| Ledger.RepriceAt | App.tsx:146 | The buy's `map` rewrites exactly the one held position, with the new quantity and average. |
| Ledger.DecrementAt | App.tsx:163 | The sell's `map` rewrites exactly the one held position, lowering its quantity. |
| Ledger.WithoutAbsent | App.tsx:161 | Filtering out a symbol that nobody holds changes nothing. |
| Ledger.WithoutAt | App.tsx:161 | The full sell's `filter` removes exactly the held position and keeps the order of the others. |
| Ledger.WeightedAverageNonNegative | App.tsx:144-146 | The weighted average of non-negative costs is not negative. |
| Ledger.AppendWellFormed | App.tsx:148 | Appending a position for a symbol that is not held keeps the invariant and every other holding. |
| Ledger.UpdateWellFormed | App.tsx:146 | Replacing a position by one of the same symbol keeps the invariant and every other holding. |
| Ledger.RemoveWellFormed | App.tsx:161 | Deleting a position keeps the invariant and every other holding, and no position for that symbol remains. |
| Ledger.BoughtAt | App.tsx:143-146 | A buy of a held symbol rewrites that position with the summed quantity and the weighted average. |
| Ledger.SoldAt | App.tsx:159-164 | A sell of the whole holding deletes the position. A partial sell lowers the position's quantity. |
| Ledger.BoughtWellFormed | App.tsx:141-149 | A buy keeps the invariant and leaves every position of another symbol in the list. |
| Ledger.BoughtHolding | App.tsx:141-149 | A buy of a symbol not held appends a position at the fill price. A buy of a held symbol keeps the list length, sums the quantities and sets the average to the quantity-weighted mean of the old average and the fill price. The owned quantity grows by exactly the bought quantity. |
| Ledger.BoughtOthers | App.tsx:141-149 | A buy does not change what `find` returns for any other symbol. |
| Ledger.SoldWellFormed | App.tsx:153-164 | A sell keeps the invariant and every other holding. |
| Ledger.SoldHolding | App.tsx:153-164 | A full sell deletes the position and the list shrinks by one. A partial sell lowers the quantity and keeps the average cost. The owned quantity falls by exactly the sold quantity. |
| Ledger.SoldOthers | App.tsx:153-164 | A sell does not change what `find` returns for any other symbol. |
| Registry.LookupQuote | App.tsx:61 | The exact symbol key is tried first, then the upper-cased one. There is no quote exactly when neither key is present. |
| Registry.MergedVolume | App.tsx:68 | A non-empty new volume replaces the old one. An absent or empty volume keeps the old one. |
| Registry.MergeStock | App.tsx:61-73 | Defines one instrument after the merge: unchanged without a quote, otherwise updated from the quote with a fresh chart. Its effect is stated by `Registry.MergeQuotes`. |
| Registry.MergeQuotes | App.tsx:60-74 | The watch-list keeps its length, order, symbols, names and descriptions. An instrument without a quote is unchanged. A quoted instrument takes the quote's price, change and percentage, merges its volume, and gets the chart `Constants.HistoryOf` of the new price from its own draws. That chart has 29 samples ending at "16:00" at the new price, so `Constants.HistoryLabels` and `Constants.HistorySampleBounds` apply to it. |
| Registry.RefreshMarketData | App.tsx:59-78 | A failed fetch leaves the watch-list as it was. A successful fetch gives exactly the merge `Registry.MergeQuotes`, whose contract states the merged fields. |
| Registry.MergeNoMatch | App.tsx:60-74 | If no quote matches any listed symbol, the merge changes nothing. |
| Registry.MergeIdempotent | App.tsx:60-74 | Merging the same quotes twice gives the same price, change, percentage and volume as merging them once, whatever the chart draws are. |
| Registry.MergeKeepsDistinct | App.tsx:60-74 | A merge keeps the listed symbols distinct up to letter case. |
| Registry.FindIgnoringCase | App.tsx:88 | The returned instrument is listed and matches the query up to case. The result is `None` exactly when no listed symbol matches up to case. |
| Strings.IsBlank | App.tsx:85 | Defines the `!searchQuery.trim()` test: every character is ECMAScript white space or a line terminator, the set `trim` removes. `Registry.SearchSubmit` states that a blank query changes nothing. |
| Registry.SearchSubmit | App.tsx:85-99 | A blank query, a query matching a listed symbol, or a failed lookup leaves the watch-list unchanged. Otherwise the found instrument is put in front of the unchanged list. |
| Registry.SearchTwiceAddsOnce | App.tsx:85-99 | If the lookup answers with the queried symbol, two searches for it in any letter cases add at most one instrument. Once that instrument is listed, the second search changes nothing. |
| Registry.SearchAddsDuplicate | App.tsx:88-99 | As written: searching "apple" twice, answered both times with AAPL, lists AAPL twice, which breaks distinct symbols. |
| Registry.SearchSubmitChecked | App.tsx:88-99 | Corrected search: it keeps symbols distinct, and it either leaves the list unchanged or prepends the found instrument. |
| Registry.CheckedSearchAgrees | App.tsx:88-99 | The corrected search agrees with the original search whenever the original keeps symbols distinct. |
| PortfolioView.FindStock | components/PortfolioView.tsx:12 | `find` by exact symbol returns a listed instrument with that symbol. It is `None` exactly when none is listed. |
| PortfolioView.StockPrice | components/PortfolioView.tsx:12 | An unlisted symbol is priced at 0. |
| PortfolioView.StockPriceFirst | components/PortfolioView.tsx:12 | A listed symbol is priced by the first instrument that carries it. |
| PortfolioView.TotalEquity | components/PortfolioView.tsx:14-16 | Defines the `reduce` over the positions, summed in list order. Its properties are proved by the `PortfolioView.Equity*` lemmas below. |
| PortfolioView.TotalValue | components/PortfolioView.tsx:18 | Defines the net liquidation value `totalEquity + cash`. `PortfolioView.BuyKeepsTotalValue` and `PortfolioView.SellKeepsTotalValue` prove that trades at the listed price keep it. |
| PortfolioView.EmptyPortfolioValue | components/PortfolioView.tsx:14-18 | With no positions, the net liquidation value is the cash. |
| PortfolioView.EquityAgree | components/PortfolioView.tsx:14-16 | The running sum over the first n positions depends only on those positions. |
| PortfolioView.EquityAppend | components/PortfolioView.tsx:14-16 | Appending a position adds its market value to the equity. |
| PortfolioView.UnlistedAddsNothing | components/PortfolioView.tsx:12-16 | A position in a symbol that is not listed adds nothing to the equity. |
| PortfolioView.EquityUpdate | components/PortfolioView.tsx:14-16 | Replacing one position changes the equity by the difference of the two market values. |
| PortfolioView.EquityRemove | components/PortfolioView.tsx:14-16 | Deleting a position lowers the equity by its market value. |
| PortfolioView.EquityNonNegative | components/PortfolioView.tsx:14-16 | With non-negative quantities and listed prices, the equity is not negative. |
| PortfolioView.EquityOpen | components/PortfolioView.tsx:14-16 | Opening a position at the listed price raises the equity by its cost. |
| PortfolioView.EquityBuyMore | components/PortfolioView.tsx:14-16 | Adding to a position raises the equity by the bought quantity at the listed price. |
| PortfolioView.EquityClose | components/PortfolioView.tsx:14-16 | Closing a position lowers the equity by its quantity at the listed price. |
| PortfolioView.EquitySellSome | components/PortfolioView.tsx:14-16 | Taking part of a position lowers the equity by the taken quantity at the listed price. |
| PortfolioView.EquityAfterBuy | components/PortfolioView.tsx:14-16 | The positions after an accepted buy at the listed price are worth exactly the cost more. |
| PortfolioView.EquityAfterSell | components/PortfolioView.tsx:14-16 | The positions after an accepted sell at the listed price are worth exactly the proceeds less. |
| PortfolioView.BuyKeepsTotalValue | components/PortfolioView.tsx:14-18 | A buy at the listed price (App.tsx:136-149) leaves the net liquidation value `totalEquity + cash` unchanged. |
| PortfolioView.SellKeepsTotalValue | components/PortfolioView.tsx:14-18 | A sell at the listed price (App.tsx:153-164) leaves the net liquidation value unchanged. |
| PortfolioView.Valuation | components/PortfolioView.tsx:45-48 | A row has the listed price and the market value. Its cost basis is quantity times average cost, and its profit or loss is quantity times the per-share price move. |
| PortfolioView.ProfitSign | components/PortfolioView.tsx:46-62 | For a held quantity, the row shows green (`pl >= 0`) exactly when the listed price is at least the average entry price. |
| PortfolioView.PlPercent | components/PortfolioView.tsx:49 | Defines `(pl / costBasis) * 100` for a non-zero cost basis. `PortfolioView.PlPercentIsReturn` states what it means. |
| PortfolioView.PlPercentIsReturn | components/PortfolioView.tsx:47-49 | The percentage is 100 times the price move relative to the average entry price, whatever the quantity. |
| TradeModal.MaxQuantity | components/TradeModal.tsx:17 | When absent, the limit defaults to 999999. Otherwise the given value is used. |
| TradeModal.CashAvailable | components/TradeModal.tsx:18 | When absent, the cash defaults to 999999. Otherwise the given value is used. |
| TradeModal.Qty | components/TradeModal.tsx:24 | A failed parse gives quantity 0. Otherwise the parsed integer is used. |
| TradeModal.Total | components/TradeModal.tsx:25 | Defines the order total, quantity times price. `TradeModal.GateMatchesLedger` shows that the buy test on it is the ledger's `cost > cash` test. |
| TradeModal.CanExecute | components/TradeModal.tsx:26-27 | Defines the gate: a positive quantity and, for a buy, a total within the cash; for a sell, a quantity within the limit. Its meaning is proved by `TradeModal.GateNeedsPositive`, `TradeModal.DefaultLimits`, `TradeModal.GateMatchesLedger` and `TradeModal.GateSound`. |
| TradeModal.GateNeedsPositive | components/TradeModal.tsx:26 | The gate never enables an order of zero or negative quantity, on either side. |
| TradeModal.DefaultLimits | components/TradeModal.tsx:17-27 | Opened without the two limits, the gate checks only a positive quantity and, for a buy, a total of at most 999999; a sell is capped at 999999 units. |
| TradeModal.GateMatchesLedger | components/TradeModal.tsx:26-27 | Wired with `cashAvailable = cash` and `maxQuantity = getOwnedQuantity` (App.tsx:413-414), a positive-quantity order is enabled exactly when the ledger accepts it. This holds for buys and for sells. |
| TradeModal.GateSound | components/TradeModal.tsx:26-27 | Every enabled buy is affordable and every enabled sell is deliverable. |
| TradeModal.Confirm | components/TradeModal.tsx:75-81 | CONFIRM passes the parsed quantity to `executeTrade` only while `canExecute` holds, so the trade is accepted and the ledger invariant is kept. A confirmed buy debits quantity times price and sets the positions to `Bought`. A confirmed sell credits the proceeds and sets the positions to `Sold`. |
| Constants.HistoryOf | constants.ts:3-22 | Defines the chart as a value: 28 walk samples, then ("16:00", base price). Its shape, labels and bounds are proved by `Constants.HistoryShape`, `Constants.HistoryLabels` and `Constants.HistorySampleBounds`. |
| Constants.GenerateHistory | constants.ts:3-22 | The nested hour and quarter-hour loops build exactly the chart `HistoryOf` from the draws. |
| Constants.HistoryShape | constants.ts:8-20 | The chart has 7 * 4 + 1 = 29 samples, and the last one is ("16:00", base price). |
| Constants.HistoryLabels | constants.ts:8-14 | The sample labels read "i:00", "i:15", "i:30", "i:45" for hours 9 to 15, then "16:00". |
| Constants.HistoryAt | constants.ts:8-17 | Sample k (k < 28) is the k-th walk sample: its label and the price after k + 1 steps. |
| Constants.WalkPrefixGrows | constants.ts:12-16 | Each step appends exactly one sample to the chart. |
| Constants.OpenPriceBounds | constants.ts:6 | For a draw in [0,1), the opening price lies in [0.98 b, 1.02 b). |
| Constants.StepBounds | constants.ts:11 | A walk step moves the price by at most 0.75% of the base either way. |
| Constants.WalkBounds | constants.ts:6-12 | After n steps the walk is within b (0.02 + 0.0075 n) of the base b. |
| Constants.HistorySampleBounds | constants.ts:6-16 | Chart sample k is within b (0.02 + 0.0075 (k + 1)) of the base b. |
| Constants.InitialStocks | constants.ts:24-75 | The seed watch-list has five instruments, and each has a chart generated from its own price. |
| Constants.InitialSymbols | constants.ts:24-75 | The seed symbols are SPY, QQQ, DIA, NVDA and BTC. They are upper case, pairwise distinct and have positive prices. |
| Strings.Upper | App.tsx:61 | `toUpperCase` keeps the length and maps each character by the ASCII upper-casing. |
| Strings.UpperIdempotent | App.tsx:88 | Upper-casing twice is the same as upper-casing once. |

## Left out

- The market-data provider (`services/geminiService.ts`) is not part of this model. The refresh result and the lookup result are inputs: `None` on failure, otherwise a quote map or an instrument.
- The AI analysis and the news feed are not modelled, because they are only provider calls and display.
- Rendering, the clock (`lastUpdated`), the in-flight guards `isUpdating` and `isSearching` (App.tsx:52, 85), `scrollIntoView`, the `alert` shown when a lookup finds nothing (App.tsx:102), the clearing of the search box and dialog visibility (`setShowTradeModal`) are not modelled, because they are user-interface state.
- Constants.HistoryOf and Constants.GenerateHistory: the two-decimal rounding `parseFloat(currentPrice.toFixed(2))` (constants.ts:15) is not modelled. Samples carry the exact walk price.
- `Math.random` is modelled as a supplied sequence of draws. The bound lemmas assume the draws lie in [0,1).
- Floating-point arithmetic, NaN and Infinity are not modelled, because prices are exact reals.
- PortfolioView.PlPercent: requires a non-zero cost basis. The source divides by zero there and shows NaN or Infinity.
- TradeModal.Qty: `parseInt` itself is not modelled. Its outcome is the input, with `None` for NaN.
- Strings.Upper: only ASCII letters are upper-cased; `toUpperCase` on other Unicode letters (which may change the length) is not modelled.
- Ledger.Ledger.Buy, Ledger.Ledger.Sell and Ledger.Ledger.ExecuteTrade: they require a positive quantity. Their only caller is the dialog, which enforces `qty > 0` (TradeModal.GateNeedsPositive). The source's `executeTrade` does not check this itself: a buy of 0 costs 0 and would append a position of quantity 0.
- Ledger.Ledger.Buy, Ledger.Ledger.Sell and Ledger.Ledger.ExecuteTrade: they also require a non-negative price. This is an assumption taken from the data model, not something the source enforces. A refreshed price is unvalidated provider data (App.tsx:65), and the lookup rejects only a missing or zero price. The ledger invariant `cash >= 0` depends on it: at a negative price an accepted sell would lower the cash.
- Ledger.Ledger.Sell: each trade is modelled as one atomic step. The source's sell branch reads the held position from the rendered `portfolio` but updates through `prev`. Within one synchronous trade these are the same list, so the two readings are not distinguished.

## Findings

| source | as written | input that shows it | evidently intended | confidence | as-written member | corrected member |
|---|---|---|---|---|---|---|
| App.tsx:88-99 | The duplicate check compares the query with listed symbols, and the looked-up instrument is prepended unchecked. | With AAPL not listed, query "apple" and lookup AAPL, twice: the list becomes [AAPL, AAPL]. | A looked-up instrument whose symbol is already listed is not added again, so symbols stay distinct. | not executed | Registry.SearchAddsDuplicate | Registry.SearchSubmitChecked |

=== FILE: constants.dfy ===
/**
 * The synthetic intraday chart and the seed watch-list.
 *
 * `generateHistory(basePrice)` draws one random value for the opening gap
 * and one per quarter-hour step; here those draws are the supplied sequence
 * `rand` (values of `Math.random`, in [0,1)). Draw 0 is the opening gap,
 * draw n (n >= 1) is the n-th walk step.
 */
module Constants {
  import opened Types
  import opened Strings

  /** Quarter-hour samples from 9:00 to 15:45. */
  const WalkSamples: nat := 28
  /** The walk samples plus the final anchor at 16:00. */
  const SampleCount: nat := 29
  /** Random draws consumed: the opening gap plus one per walk sample. */
  const RandomDraws: nat := 29

  /** Random draws as `Math.random` produces them. */
  predicate UnitDraws(rand: seq<real>) {
    forall k :: 0 <= k < |rand| ==> 0.0 <= rand[k] < 1.0
  }

  /** The opening price: the base moved by up to 2% either way. */
  function OpenPrice(basePrice: real, r: real): real {
    basePrice * (1.0 + (r * 0.04 - 0.02))
  }

  /** One walk step: up to 0.75% of the base price either way. */
  function Step(basePrice: real, r: real): real {
    (r - 0.5) * (basePrice * 0.015)
  }

  /** `currentPrice` after `n` walk steps (n == 0: the opening price). */
  function WalkPrice(basePrice: real, rand: seq<real>, n: nat): real
    requires n < |rand|
  {
    if n == 0 then OpenPrice(basePrice, rand[0])
    else WalkPrice(basePrice, rand, n - 1) + Step(basePrice, rand[n])
  }

  /** The template `${i}:${j === 0 ? '00' : j}`. */
  function TimeLabel(hour: nat, minute: nat): string {
    DecimalString(hour) + ":" + (if minute == 0 then "00" else DecimalString(minute))
  }

  /** The label of walk sample `k`: hour 9 + k/4, minute 15 * (k%4). */
  function SlotLabel(k: nat): string {
    TimeLabel(9 + k / 4, (k % 4) * 15)
  }

  /** Walk sample `k` (k < 28): its label and the price after k + 1 steps. */
  function WalkSample(basePrice: real, rand: seq<real>, k: nat): Sample
    requires k + 1 < |rand|
  {
    Sample(SlotLabel(k), WalkPrice(basePrice, rand, k + 1))
  }

  /** The first `n` walk samples. */
  function WalkPrefix(basePrice: real, rand: seq<real>, n: nat): seq<Sample>
    requires n < |rand|
  {
    seq(n, k requires 0 <= k < n => WalkSample(basePrice, rand, k))
  }

  /** The chart `generateHistory` builds, without the two-decimal rounding. */
  function HistoryOf(basePrice: real, rand: seq<real>): seq<Sample>
    requires |rand| == RandomDraws
  {
    WalkPrefix(basePrice, rand, WalkSamples) + [Sample("16:00", basePrice)]
  }

  /** One more walk sample extends the prefix by that sample. */
  lemma WalkPrefixGrows(basePrice: real, rand: seq<real>, n: nat)
    requires n + 1 < |rand|
    ensures WalkPrefix(basePrice, rand, n + 1) == WalkPrefix(basePrice, rand, n) + [WalkSample(basePrice, rand, n)]
  {
    assert forall k :: 0 <= k < n ==> WalkPrefix(basePrice, rand, n + 1)[k] == WalkPrefix(basePrice, rand, n)[k];
  }

  /** Inner-loop position (hour i, minute j) is walk sample 4 (i - 9) + j / 15. */
  lemma SlotOfLoop(i: int, j: int)
    requires 9 <= i < 16 && (j == 0 || j == 15 || j == 30 || j == 45)
    ensures 4 * (i - 9) + j / 15 >= 0
    ensures SlotLabel(4 * (i - 9) + j / 15) == TimeLabel(i, j)
  {
    var k := 4 * (i - 9) + j / 15;
    assert k / 4 == i - 9 && k % 4 == j / 15;
  }

  /**
   * The sample taken at hour i, minute j, after `n` = 4 (i - 9) + j / 15
   * samples, is walk sample n: labelled "i:j" and priced one step on.
   */
  lemma NextSample(basePrice: real, rand: seq<real>, i: int, j: int, n: nat)
    requires |rand| == RandomDraws && 9 <= i < 16 && (j == 0 || j == 15 || j == 30 || j == 45)
    requires n == 4 * (i - 9) + j / 15
    ensures n + 1 < |rand|
    ensures WalkPrice(basePrice, rand, n + 1) == WalkPrice(basePrice, rand, n) + Step(basePrice, rand[n + 1])
    ensures WalkPrefix(basePrice, rand, n + 1)
            == WalkPrefix(basePrice, rand, n) + [Sample(TimeLabel(i, j), WalkPrice(basePrice, rand, n + 1))]
  {
    SlotOfLoop(i, j);
    WalkPrefixGrows(basePrice, rand, n);
  }

  /** `generateHistory`: nested hour/quarter loops, then the 16:00 anchor. */
  method GenerateHistory(basePrice: real, rand: seq<real>) returns (history: seq<Sample>)
    requires |rand| == RandomDraws
    ensures history == HistoryOf(basePrice, rand)
  {
    history := [];
    var currentPrice := OpenPrice(basePrice, rand[0]);
    var draw := 1;
    for i := 9 to 16
      invariant draw == 4 * (i - 9) + 1
      invariant currentPrice == WalkPrice(basePrice, rand, draw - 1)
      invariant history == WalkPrefix(basePrice, rand, draw - 1)
    {
      var j := 0;
      while j < 60
        invariant j == 0 || j == 15 || j == 30 || j == 45 || j == 60
        invariant draw == 4 * (i - 9) + j / 15 + 1
        invariant currentPrice == WalkPrice(basePrice, rand, draw - 1)
        invariant history == WalkPrefix(basePrice, rand, draw - 1)
      {
        NextSample(basePrice, rand, i, j, draw - 1);
        currentPrice := currentPrice + Step(basePrice, rand[draw]);
        history := history + [Sample(TimeLabel(i, j), currentPrice)];
        draw := draw + 1;
        j := j + 15;
      }
    }
    history := history + [Sample("16:00", basePrice)];
  }

  /** Exactly 29 samples, ending with the unrounded base price at 16:00. */
  lemma HistoryShape(basePrice: real, rand: seq<real>)
    requires |rand| == RandomDraws
    ensures |HistoryOf(basePrice, rand)| == SampleCount == 7 * 4 + 1
    ensures HistoryOf(basePrice, rand)[SampleCount - 1] == Sample("16:00", basePrice)
  {
  }

  /** The minute part of the k-th label of an hour. */
  const Quarters: seq<string> := ["00", "15", "30", "45"]

  /**
   * The first 28 labels run "i:00", "i:15", "i:30", "i:45" for i = 9 .. 15,
   * so the chart reads 9:00, 9:15, ..., 15:45, 16:00.
   */
  lemma HistoryLabels(basePrice: real, rand: seq<real>)
    requires |rand| == RandomDraws
    ensures forall i, m :: 9 <= i < 16 && 0 <= m < 4 ==>
              HistoryOf(basePrice, rand)[4 * (i - 9) + m].time == DecimalString(i) + ":" + Quarters[m]
    ensures HistoryOf(basePrice, rand)[0].time == "9:00"
    ensures HistoryOf(basePrice, rand)[WalkSamples - 1].time == "15:45"
    ensures HistoryOf(basePrice, rand)[WalkSamples].time == "16:00"
  {
    var h := HistoryOf(basePrice, rand);
    forall i, m | 9 <= i < 16 && 0 <= m < 4
      ensures h[4 * (i - 9) + m].time == DecimalString(i) + ":" + Quarters[m]
    {
      SlotLabelAt(i, m);
    }
    FirstAndLastSlot();
  }

  lemma FirstAndLastSlot()
    ensures SlotLabel(0) == "9:00" && SlotLabel(WalkSamples - 1) == "15:45"
  {
    SlotLabelAt(9, 0);
    SlotLabelAt(15, 3);
    assert DecimalString(15) == "15" by { assert DecimalString(1) == "1"; }
  }

  /** Hour i, quarter m is labelled "i:" followed by the m-th quarter. */
  lemma SlotLabelAt(i: int, m: int)
    requires 9 <= i < 16 && 0 <= m < 4
    ensures 4 * (i - 9) + m >= 0
    ensures SlotLabel(4 * (i - 9) + m) == DecimalString(i) + ":" + Quarters[m]
  {
    SlotOfQuarter(i, m);
    TimeLabelAt(i, m);
  }

  lemma SlotOfQuarter(i: int, m: int)
    requires 9 <= i < 16 && 0 <= m < 4
    ensures 4 * (i - 9) + m >= 0
    ensures SlotLabel(4 * (i - 9) + m) == TimeLabel(i, 15 * m)
  {
    var k := 4 * (i - 9) + m;
    assert k / 4 == i - 9 && k % 4 == m;
  }

  lemma TimeLabelAt(i: int, m: int)
    requires 9 <= i < 16 && 0 <= m < 4
    ensures TimeLabel(i, 15 * m) == DecimalString(i) + ":" + Quarters[m]
  {
    TimeLabelUnfold(i, 15 * m);
    QuarterLabel(m);
    var x := if 15 * m == 0 then "00" else DecimalString(15 * m);
    assert x == Quarters[m];
  }

  lemma TimeLabelUnfold(i: nat, j: nat)
    ensures TimeLabel(i, j) == DecimalString(i) + ":" + (if j == 0 then "00" else DecimalString(j))
  {
  }

  lemma QuarterLabel(m: int)
    requires 0 <= m < 4
    ensures (if 15 * m == 0 then "00" else DecimalString(15 * m)) == Quarters[m]
  {
    if m == 1 {
      assert DecimalString(15) == "15" by { assert DecimalString(1) == "1"; }
    } else if m == 2 {
      assert DecimalString(30) == "30" by { assert DecimalString(3) == "3"; }
    } else if m == 3 {
      assert DecimalString(45) == "45" by { assert DecimalString(4) == "4"; }
    }
  }

  /** With a draw in [0,1) the opening price lies in [0.98 b, 1.02 b). */
  lemma OpenPriceBounds(basePrice: real, r: real)
    requires basePrice > 0.0 && 0.0 <= r < 1.0
    ensures 0.98 * basePrice <= OpenPrice(basePrice, r) < 1.02 * basePrice
  {
    assert OpenPrice(basePrice, r) == 0.98 * basePrice + basePrice * (r * 0.04);
    assert 0.0 <= basePrice * (r * 0.04) < basePrice * 0.04;
  }

  /** Multiplying by a non-negative factor keeps an interval's bounds. */
  lemma ScaleBounds(x: real, lo: real, hi: real, b: real)
    requires lo <= x <= hi && b >= 0.0
    ensures lo * b <= x * b <= hi * b
  {
    assert (x - lo) * b >= 0.0 && (hi - x) * b >= 0.0;
  }

  /** A walk step moves the price by at most 0.75% of the base. */
  lemma StepBounds(basePrice: real, r: real)
    requires basePrice >= 0.0 && 0.0 <= r < 1.0
    ensures -0.0075 * basePrice <= Step(basePrice, r) <= 0.0075 * basePrice
  {
    var x := (r - 0.5) * 0.015;
    assert Step(basePrice, r) == x * basePrice;
    assert -0.0075 <= x <= 0.0075;
    ScaleBounds(x, -0.0075, 0.0075, basePrice);
  }

  /** The opening gap is at most 2% of the base either way. */
  lemma OpenGapBounds(basePrice: real, r: real)
    requires basePrice >= 0.0 && 0.0 <= r < 1.0
    ensures -(0.02 * basePrice) <= OpenPrice(basePrice, r) - basePrice <= 0.02 * basePrice
  {
    var x := r * 0.04 - 0.02;
    assert OpenPrice(basePrice, r) - basePrice == x * basePrice;
    ScaleBounds(x, -0.02, 0.02, basePrice);
  }

  /** How far the walk may be from the base after `n` steps: 2% plus 0.75% per step. */
  function Band(basePrice: real, n: nat): real {
    basePrice * (0.02 + 0.0075 * n as real)
  }

  /** The band before the first step is 2% of the base. */
  lemma BandAtOpen(basePrice: real)
    ensures Band(basePrice, 0) == 0.02 * basePrice
  {
  }

  /** Each step widens the band by 0.75% of the base. */
  lemma BandWidens(basePrice: real, n: nat)
    requires n >= 1
    ensures Band(basePrice, n) == Band(basePrice, n - 1) + 0.0075 * basePrice
  {
  }

  /** After `n` steps the walk is within `Band(b, n)` = b (0.02 + 0.0075 n) of the base b. */
  lemma {:induction false} WalkBounds(basePrice: real, rand: seq<real>, n: nat)
    requires basePrice >= 0.0 && UnitDraws(rand) && n < |rand|
    ensures -Band(basePrice, n) <= WalkPrice(basePrice, rand, n) - basePrice <= Band(basePrice, n)
  {
    if n == 0 {
      OpenGapBounds(basePrice, rand[0]);
      BandAtOpen(basePrice);
    } else {
      WalkBounds(basePrice, rand, n - 1);
      StepBounds(basePrice, rand[n]);
      BandWidens(basePrice, n);
    }
  }

  /** Sample k of the chart (k < 28), taken after k + 1 steps, is within `Band(b, k + 1)` of the base b. */
  lemma HistorySampleBounds(basePrice: real, rand: seq<real>, k: nat)
    requires basePrice >= 0.0 && |rand| == RandomDraws && UnitDraws(rand) && k < WalkSamples
    ensures -Band(basePrice, k + 1) <= HistoryOf(basePrice, rand)[k].price - basePrice <= Band(basePrice, k + 1)
  {
    HistoryAt(basePrice, rand, k);
    assert HistoryOf(basePrice, rand)[k].price == WalkPrice(basePrice, rand, k + 1);
    WalkBounds(basePrice, rand, k + 1);
  }

  /** Sample k of the chart (k < 28) is walk sample k. */
  lemma HistoryAt(basePrice: real, rand: seq<real>, k: nat)
    requires |rand| == RandomDraws && k < WalkSamples
    ensures HistoryOf(basePrice, rand)[k] == WalkSample(basePrice, rand, k)
  {
  }

  /** One seed instrument, its chart generated from its own draws. */
  function Seed(symbol: string, name: string, price: real, change: real, changePercent: real,
                volume: string, description: string, rand: seq<real>): Stock
    requires |rand| == RandomDraws
  {
    Stock(symbol, name, price, change, changePercent, volume, HistoryOf(price, rand), Some(description))
  }

  /** `INITIAL_STOCKS`, given the draws each seed's chart consumes. */
  function InitialStocks(rand: seq<seq<real>>): (stocks: seq<Stock>)
    requires |rand| == 5 && forall i :: 0 <= i < 5 ==> |rand[i]| == RandomDraws
    ensures |stocks| == 5
    ensures forall i :: 0 <= i < 5 ==> stocks[i].history == HistoryOf(stocks[i].price, rand[i])
  {
    [ Seed("SPY", "S&P 500 ETF", 512.00, 1.50, 0.29, "85.2M", "Standard & Poor's 500 Index ETF.", rand[0]),
      Seed("QQQ", "NASDAQ 100 ETF", 440.50, 2.10, 0.48, "42.1M", "Nasdaq-100 Index Tracking Stock.", rand[1]),
      Seed("DIA", "DOW JONES ETF", 390.20, -0.80, -0.20, "12.4M", "Dow Jones Industrial Average ETF.", rand[2]),
      Seed("NVDA", "NVIDIA CORP", 875.24, 12.45, 1.44, "45.2M", "Technology company known for GPUs.", rand[3]),
      Seed("BTC", "BITCOIN USD", 69420.00, 1200.50, 1.76, "28.4B", "Decentralized digital currency.", rand[4]) ]
  }

  /** The seed symbols are SPY, QQQ, DIA, NVDA, BTC: upper case and pairwise distinct. */
  lemma InitialSymbols(rand: seq<seq<real>>)
    requires |rand| == 5 && forall i :: 0 <= i < 5 ==> |rand[i]| == RandomDraws
    ensures var s := InitialStocks(rand);
            [s[0].symbol, s[1].symbol, s[2].symbol, s[3].symbol, s[4].symbol] == ["SPY", "QQQ", "DIA", "NVDA", "BTC"]
    ensures var s := InitialStocks(rand);
            forall i :: 0 <= i < 5 ==> Upper(s[i].symbol) == s[i].symbol
    ensures var s := InitialStocks(rand);
            forall i, j :: 0 <= i < j < 5 ==> Upper(s[i].symbol) != Upper(s[j].symbol)
    ensures forall i :: 0 <= i < 5 ==> InitialStocks(rand)[i].price > 0.0
  {
    var s := InitialStocks(rand);
    forall i | 0 <= i < 5
      ensures Upper(s[i].symbol) == s[i].symbol
    {
      var sym := s[i].symbol;
      assert forall c :: c in sym ==> 'A' <= c <= 'Z';
      assert forall k :: 0 <= k < |sym| ==> Upper(sym)[k] == sym[k];
    }
  }
}

=== FILE: ledger.dfy ===
/**
 * The portfolio ledger of App.tsx: one cash balance and a list of positions,
 * changed by buys and sells that are either applied completely or rejected.
 *
 * The list operations the trade handler uses (`find`, `map`, `filter`,
 * append) are the functions below; `Bought` and `Sold` are the new position
 * lists of an accepted buy and sell, and the class `Ledger` holds the state
 * its methods update in place.
 */
module Ledger {
  import opened Types

  /** The opening cash balance. */
  const InitialCash: real := 10000.0

  /** The first position at index `i` or later that holds `symbol`. */
  function FindFrom(ps: seq<Position>, symbol: string, i: nat): (r: Option<Position>)
    requires i <= |ps|
    ensures r.Some? ==> r.value in ps && r.value.symbol == symbol
    ensures r.None? <==> forall j :: i <= j < |ps| ==> ps[j].symbol != symbol
    decreases |ps| - i
  {
    if i == |ps| then None
    else if ps[i].symbol == symbol then Some(ps[i])
    else FindFrom(ps, symbol, i + 1)
  }

  /** `ps.find(p => p.symbol === symbol)`: the first position holding `symbol`, if any. */
  function Find(ps: seq<Position>, symbol: string): (r: Option<Position>)
    ensures r.Some? ==> r.value in ps && r.value.symbol == symbol
    ensures r.None? <==> forall i :: 0 <= i < |ps| ==> ps[i].symbol != symbol
  {
    FindFrom(ps, symbol, 0)
  }

  /** At most one position per symbol. */
  predicate UniqueSymbols(ps: seq<Position>) {
    forall i, j :: 0 <= i < j < |ps| ==> ps[i].symbol != ps[j].symbol
  }

  /**
   * The ledger's invariant on its positions: one per symbol, a position is
   * deleted rather than left at quantity 0, and its average cost is not negative.
   */
  predicate WellFormed(ps: seq<Position>) {
    UniqueSymbols(ps)
    && forall i :: 0 <= i < |ps| ==> ps[i].quantity > 0 && ps[i].averageEntryPrice >= 0.0
  }

  /** With one position per symbol, a scan from before the holding position stops at it. */
  lemma {:induction false} FindFromAt(ps: seq<Position>, symbol: string, i: nat, k: int)
    requires UniqueSymbols(ps) && i <= k < |ps| && ps[k].symbol == symbol
    ensures FindFrom(ps, symbol, i) == Some(ps[k])
    decreases k - i
  {
    if i < k {
      assert ps[i].symbol != symbol;
      FindFromAt(ps, symbol, i + 1, k);
    }
  }

  /** With one position per symbol, `find` returns the one holding that symbol. */
  lemma FindAt(ps: seq<Position>, symbol: string, k: int)
    requires UniqueSymbols(ps) && 0 <= k < |ps| && ps[k].symbol == symbol
    ensures Find(ps, symbol) == Some(ps[k])
  {
    FindFromAt(ps, symbol, 0, k);
  }

  /** The index of the position `find` returns. */
  lemma HeldAt(ps: seq<Position>, symbol: string) returns (k: int)
    requires Find(ps, symbol).Some?
    ensures 0 <= k < |ps| && ps[k] == Find(ps, symbol).value && ps[k].symbol == symbol
  {
    k :| 0 <= k < |ps| && ps[k] == Find(ps, symbol).value;
  }

  /** With one position per symbol, `find` depends only on the positions holding that symbol. */
  lemma FindSame(a: seq<Position>, b: seq<Position>, symbol: string)
    requires UniqueSymbols(a) && UniqueSymbols(b)
    requires forall p: Position :: p.symbol == symbol ==> (p in a <==> p in b)
    ensures Find(a, symbol) == Find(b, symbol)
  {
    if Find(a, symbol).Some? {
      var p := Find(a, symbol).value;
      var i :| 0 <= i < |a| && a[i] == p;
      var j :| 0 <= j < |b| && b[j] == p;
      FindAt(a, symbol, i);
      FindAt(b, symbol, j);
    } else {
      assert forall j :: 0 <= j < |b| ==> b[j].symbol != symbol by {
        forall j | 0 <= j < |b|
          ensures b[j].symbol != symbol
        {
          assert b[j] in b;
        }
      }
    }
  }

  /** `getOwnedQuantity`: the held quantity, or 0 when nothing is held. */
  function OwnedQuantity(ps: seq<Position>, symbol: string): (q: int)
    ensures WellFormed(ps) ==> q >= 0
    ensures WellFormed(ps) ==> (q == 0 <==> forall i :: 0 <= i < |ps| ==> ps[i].symbol != symbol)
  {
    match Find(ps, symbol)
    case Some(p) => p.quantity
    case None => 0
  }

  /** The quantity reported for a held symbol is that position's quantity. */
  lemma OwnedQuantityAt(ps: seq<Position>, symbol: string, k: int)
    requires UniqueSymbols(ps) && 0 <= k < |ps| && ps[k].symbol == symbol
    ensures OwnedQuantity(ps, symbol) == ps[k].quantity
  {
    FindAt(ps, symbol, k);
  }

  /** The buy test of `executeTrade`: the order is rejected when `cost > cash`. */
  predicate CanAfford(cash: real, quantity: int, price: real) {
    !(quantity as real * price > cash)
  }

  /** The sell test: rejected when nothing is held or `existing.quantity < quantity`. */
  predicate CanDeliver(ps: seq<Position>, symbol: string, quantity: int) {
    Find(ps, symbol).Some? && !(Find(ps, symbol).value.quantity < quantity)
  }

  /** `ps.map(p => p.symbol === symbol ? {...p, quantity, averageEntryPrice} : p)`. */
  function Reprice(ps: seq<Position>, symbol: string, quantity: int, average: real): seq<Position> {
    seq(|ps|, i requires 0 <= i < |ps| =>
      if ps[i].symbol == symbol then ps[i].(quantity := quantity, averageEntryPrice := average) else ps[i])
  }

  /** `ps.map(p => p.symbol === symbol ? {...p, quantity: p.quantity - sold} : p)`. */
  function Decrement(ps: seq<Position>, symbol: string, sold: int): seq<Position> {
    seq(|ps|, i requires 0 <= i < |ps| =>
      if ps[i].symbol == symbol then ps[i].(quantity := ps[i].quantity - sold) else ps[i])
  }

  /** `ps.filter(p => p.symbol !== symbol)`. */
  function Without(ps: seq<Position>, symbol: string): seq<Position> {
    if |ps| == 0 then []
    else if ps[0].symbol == symbol then Without(ps[1..], symbol)
    else [ps[0]] + Without(ps[1..], symbol)
  }

  /** The weighted average cost after adding `quantity` at `price` to `held`. */
  function WeightedAverage(held: Position, quantity: int, price: real): real
    requires held.quantity + quantity != 0
  {
    (held.quantity as real * held.averageEntryPrice + quantity as real * price) / (held.quantity + quantity) as real
  }

  /** The positions after an accepted buy. */
  function Bought(ps: seq<Position>, symbol: string, quantity: int, price: real): seq<Position>
    requires WellFormed(ps) && quantity > 0
  {
    match Find(ps, symbol)
    case Some(held) => Reprice(ps, symbol, held.quantity + quantity, WeightedAverage(held, quantity, price))
    case None => ps + [Position(symbol, quantity, price)]
  }

  /** The positions after an accepted sell. */
  function Sold(ps: seq<Position>, symbol: string, quantity: int): seq<Position>
    requires Find(ps, symbol).Some?
  {
    if Find(ps, symbol).value.quantity == quantity then Without(ps, symbol)
    else Decrement(ps, symbol, quantity)
  }

  /** With one position per symbol, the `map` of a buy rewrites exactly the held one. */
  lemma RepriceAt(ps: seq<Position>, symbol: string, k: int, quantity: int, average: real)
    requires UniqueSymbols(ps) && 0 <= k < |ps| && ps[k].symbol == symbol
    ensures Reprice(ps, symbol, quantity, average) == ps[k := Position(symbol, quantity, average)]
  {
    assert forall i :: 0 <= i < |ps| && i != k ==> ps[i].symbol != symbol;
  }

  /** With one position per symbol, the `map` of a sell rewrites exactly the held one. */
  lemma DecrementAt(ps: seq<Position>, symbol: string, k: int, sold: int)
    requires UniqueSymbols(ps) && 0 <= k < |ps| && ps[k].symbol == symbol
    ensures Decrement(ps, symbol, sold) == ps[k := ps[k].(quantity := ps[k].quantity - sold)]
  {
    assert forall i :: 0 <= i < |ps| && i != k ==> ps[i].symbol != symbol;
  }

  /** Filtering out a symbol nobody holds changes nothing. */
  lemma {:induction false} WithoutAbsent(ps: seq<Position>, symbol: string)
    requires forall i :: 0 <= i < |ps| ==> ps[i].symbol != symbol
    ensures Without(ps, symbol) == ps
  {
    if |ps| > 0 {
      WithoutAbsent(ps[1..], symbol);
      assert [ps[0]] + ps[1..] == ps;
    }
  }

  /** With one position per symbol, the `filter` of a full sell removes exactly the held one. */
  lemma {:induction false} WithoutAt(ps: seq<Position>, symbol: string, k: int)
    requires UniqueSymbols(ps) && 0 <= k < |ps| && ps[k].symbol == symbol
    ensures Without(ps, symbol) == ps[..k] + ps[k + 1..]
  {
    if k == 0 {
      WithoutAbsent(ps[1..], symbol);
    } else {
      WithoutAt(ps[1..], symbol, k - 1);
      assert ps[1..][..k - 1] == ps[1..k];
      assert ps[1..][k..] == ps[k + 1..];
      assert [ps[0]] + ps[1..k] == ps[..k];
    }
  }

  /** The weighted average of non-negative costs is not negative. */
  lemma WeightedAverageNonNegative(held: Position, quantity: int, price: real)
    requires held.quantity > 0 && held.averageEntryPrice >= 0.0 && quantity > 0 && price >= 0.0
    ensures WeightedAverage(held, quantity, price) >= 0.0
  {
    assert held.quantity as real * held.averageEntryPrice >= 0.0;
    assert quantity as real * price >= 0.0;
  }

  /** Appending a position for a symbol not held keeps the invariant and every other holding. */
  lemma AppendWellFormed(ps: seq<Position>, p: Position)
    requires WellFormed(ps) && Find(ps, p.symbol).None?
    requires p.quantity > 0 && p.averageEntryPrice >= 0.0
    ensures WellFormed(ps + [p])
    ensures forall x: Position :: x.symbol != p.symbol ==> (x in ps + [p] <==> x in ps)
  {
    var r := ps + [p];
    assert forall i :: 0 <= i < |ps| ==> r[i] == ps[i];
    assert UniqueSymbols(r);
  }

  /** Replacing one position by another of the same symbol keeps the invariant and every other holding. */
  lemma UpdateWellFormed(ps: seq<Position>, k: int, p: Position)
    requires WellFormed(ps) && 0 <= k < |ps| && p.symbol == ps[k].symbol
    requires p.quantity > 0 && p.averageEntryPrice >= 0.0
    ensures WellFormed(ps[k := p])
    ensures forall x: Position :: x.symbol != p.symbol ==> (x in ps[k := p] <==> x in ps)
  {
    var r := ps[k := p];
    forall x: Position | x.symbol != p.symbol
      ensures x in r <==> x in ps
    {
      if x in r {
        var i :| 0 <= i < |r| && r[i] == x;
        assert i != k && ps[i] == x;
      }
      if x in ps {
        var i :| 0 <= i < |ps| && ps[i] == x;
        assert i != k && r[i] == x;
      }
    }
  }

  /** Deleting one position keeps the invariant and every other holding, and drops its symbol. */
  lemma RemoveWellFormed(ps: seq<Position>, k: int)
    requires WellFormed(ps) && 0 <= k < |ps|
    ensures WellFormed(ps[..k] + ps[k + 1..])
    ensures forall x :: x in ps[..k] + ps[k + 1..] ==> x.symbol != ps[k].symbol
    ensures forall x: Position :: x.symbol != ps[k].symbol ==> (x in ps[..k] + ps[k + 1..] <==> x in ps)
  {
    var r := ps[..k] + ps[k + 1..];
    assert forall i :: 0 <= i < |r| ==> r[i] == ps[if i < k then i else i + 1];
    forall x: Position | x.symbol != ps[k].symbol && x in ps
      ensures x in r
    {
      var i :| 0 <= i < |ps| && ps[i] == x;
      assert r[if i < k then i else i - 1] == x;
    }
  }

  /** A buy of a held symbol rewrites exactly that position, with the summed quantity and the weighted average. */
  lemma BoughtAt(ps: seq<Position>, symbol: string, quantity: int, price: real, k: int)
    requires WellFormed(ps) && quantity > 0 && 0 <= k < |ps| && ps[k].symbol == symbol
    ensures Bought(ps, symbol, quantity, price)
            == ps[k := Position(symbol, ps[k].quantity + quantity, WeightedAverage(ps[k], quantity, price))]
  {
    FindAt(ps, symbol, k);
    RepriceAt(ps, symbol, k, ps[k].quantity + quantity, WeightedAverage(ps[k], quantity, price));
  }

  /** A sell of a held symbol deletes that position when it is sold in full, else lowers its quantity. */
  lemma SoldAt(ps: seq<Position>, symbol: string, quantity: int, k: int)
    requires UniqueSymbols(ps) && 0 <= k < |ps| && ps[k].symbol == symbol
    ensures Find(ps, symbol).Some?
    ensures ps[k].quantity == quantity ==> Sold(ps, symbol, quantity) == ps[..k] + ps[k + 1..]
    ensures ps[k].quantity != quantity ==>
              Sold(ps, symbol, quantity) == ps[k := ps[k].(quantity := ps[k].quantity - quantity)]
  {
    FindAt(ps, symbol, k);
    if ps[k].quantity == quantity {
      WithoutAt(ps, symbol, k);
    } else {
      DecrementAt(ps, symbol, k, quantity);
    }
  }

  /** A buy keeps the invariant: one position per symbol, positive quantities, non-negative cost. */
  lemma BoughtWellFormed(ps: seq<Position>, symbol: string, quantity: int, price: real)
    requires WellFormed(ps) && quantity > 0 && price >= 0.0
    ensures WellFormed(Bought(ps, symbol, quantity, price))
    ensures forall x: Position :: x.symbol != symbol ==> (x in Bought(ps, symbol, quantity, price) <==> x in ps)
  {
    if Find(ps, symbol).None? {
      AppendWellFormed(ps, Position(symbol, quantity, price));
    } else {
      var k := HeldAt(ps, symbol);
      WeightedAverageNonNegative(ps[k], quantity, price);
      BoughtAt(ps, symbol, quantity, price, k);
      UpdateWellFormed(ps, k, Position(symbol, ps[k].quantity + quantity, WeightedAverage(ps[k], quantity, price)));
    }
  }

  /**
   * A buy of a symbol not held appends a position at the fill price; a buy of
   * a held symbol keeps the list's length and makes the quantity the sum and
   * the average cost the quantity-weighted mean of old cost and fill price.
   */
  lemma BoughtHolding(ps: seq<Position>, symbol: string, quantity: int, price: real)
    requires WellFormed(ps) && quantity > 0 && price >= 0.0
    ensures Find(ps, symbol).None? ==> Bought(ps, symbol, quantity, price) == ps + [Position(symbol, quantity, price)]
    ensures Find(ps, symbol).Some? ==>
              var held := Find(ps, symbol).value;
              |Bought(ps, symbol, quantity, price)| == |ps|
              && Find(Bought(ps, symbol, quantity, price), symbol)
                 == Some(Position(symbol, held.quantity + quantity,
                                  (held.quantity as real * held.averageEntryPrice + quantity as real * price)
                                  / (held.quantity + quantity) as real))
    ensures OwnedQuantity(Bought(ps, symbol, quantity, price), symbol) == OwnedQuantity(ps, symbol) + quantity
  {
    BoughtWellFormed(ps, symbol, quantity, price);
    var r := Bought(ps, symbol, quantity, price);
    if Find(ps, symbol).None? {
      FindAt(r, symbol, |ps|);
    } else {
      var k := HeldAt(ps, symbol);
      BoughtAt(ps, symbol, quantity, price, k);
      FindAt(r, symbol, k);
    }
  }

  /** A buy leaves every other symbol's position as it was. */
  lemma BoughtOthers(ps: seq<Position>, symbol: string, quantity: int, price: real, other: string)
    requires WellFormed(ps) && quantity > 0 && price >= 0.0 && other != symbol
    ensures Find(Bought(ps, symbol, quantity, price), other) == Find(ps, other)
  {
    BoughtWellFormed(ps, symbol, quantity, price);
    FindSame(Bought(ps, symbol, quantity, price), ps, other);
  }

  /** A sell keeps the invariant and every other holding. */
  lemma SoldWellFormed(ps: seq<Position>, symbol: string, quantity: int)
    requires WellFormed(ps) && CanDeliver(ps, symbol, quantity) && quantity > 0
    ensures WellFormed(Sold(ps, symbol, quantity))
    ensures forall x: Position :: x.symbol != symbol ==> (x in Sold(ps, symbol, quantity) <==> x in ps)
  {
    var held := Find(ps, symbol).value;
    var k :| 0 <= k < |ps| && ps[k] == held;
    if held.quantity == quantity {
      WithoutAt(ps, symbol, k);
      RemoveWellFormed(ps, k);
    } else {
      DecrementAt(ps, symbol, k, quantity);
      UpdateWellFormed(ps, k, held.(quantity := held.quantity - quantity));
    }
  }

  /**
   * Selling the whole holding deletes the position (the list shrinks by one);
   * selling part of it lowers the quantity and keeps the average cost.
   */
  lemma SoldHolding(ps: seq<Position>, symbol: string, quantity: int)
    requires WellFormed(ps) && CanDeliver(ps, symbol, quantity) && quantity > 0
    ensures var held := Find(ps, symbol).value;
            held.quantity == quantity ==>
              Find(Sold(ps, symbol, quantity), symbol).None? && |Sold(ps, symbol, quantity)| == |ps| - 1
    ensures var held := Find(ps, symbol).value;
            held.quantity != quantity ==>
              |Sold(ps, symbol, quantity)| == |ps|
              && Find(Sold(ps, symbol, quantity), symbol)
                 == Some(Position(symbol, held.quantity - quantity, held.averageEntryPrice))
    ensures OwnedQuantity(Sold(ps, symbol, quantity), symbol) == OwnedQuantity(ps, symbol) - quantity
  {
    var held := Find(ps, symbol).value;
    var k :| 0 <= k < |ps| && ps[k] == held;
    var r := Sold(ps, symbol, quantity);
    if held.quantity == quantity {
      WithoutAt(ps, symbol, k);
      RemoveWellFormed(ps, k);
      assert forall i :: 0 <= i < |r| ==> r[i] in r;
    } else {
      DecrementAt(ps, symbol, k, quantity);
      UpdateWellFormed(ps, k, held.(quantity := held.quantity - quantity));
      FindAt(r, symbol, k);
    }
  }

  /** A sell leaves every other symbol's position as it was. */
  lemma SoldOthers(ps: seq<Position>, symbol: string, quantity: int, other: string)
    requires WellFormed(ps) && CanDeliver(ps, symbol, quantity) && quantity > 0 && other != symbol
    ensures Find(Sold(ps, symbol, quantity), other) == Find(ps, other)
  {
    SoldWellFormed(ps, symbol, quantity);
    FindSame(Sold(ps, symbol, quantity), ps, other);
  }

  /**
   * The worked example: from an empty ledger, buy 10 at 100 and 5 at 110
   * (average 1550/15), then sell all 15 at 120, which deletes the position.
   * Each trade passes the ledger's test; a buy of 77 more at 110 would
   * exceed the 8450 left, and a sell of 16 would exceed the holding.
   */
  lemma {:induction false} ThreeTradeScenario()
    ensures var p1 := Bought([], "SPY", 10, 100.0);
            var p2 := Bought(p1, "SPY", 5, 110.0);
            p1 == [Position("SPY", 10, 100.0)]
            && p2 == [Position("SPY", 15, 1550.0 / 15.0)]
            && CanDeliver(p2, "SPY", 15) && !CanDeliver(p2, "SPY", 16)
            && Sold(p2, "SPY", 15) == []
    ensures CanAfford(InitialCash, 10, 100.0) && InitialCash - 10 as real * 100.0 == 9000.0
    ensures CanAfford(9000.0, 5, 110.0) && 9000.0 - 5 as real * 110.0 == 8450.0
    ensures !CanAfford(8450.0, 77, 110.0)
    ensures 8450.0 + 15 as real * 120.0 == 10250.0
  {
    var p1 := Bought([], "SPY", 10, 100.0);
    assert p1 == [Position("SPY", 10, 100.0)];
    FindAt(p1, "SPY", 0);
    RepriceAt(p1, "SPY", 0, 15, WeightedAverage(p1[0], 5, 110.0));
    var p2 := Bought(p1, "SPY", 5, 110.0);
    FindAt(p2, "SPY", 0);
    WithoutAt(p2, "SPY", 0);
  }

  /** The ledger state: cash and the position list, updated by trades. */
  class Ledger {
    var cash: real
    var positions: seq<Position>

    /** Cash is never negative and the positions are well formed. */
    ghost predicate Valid()
      reads this
    {
      cash >= 0.0 && WellFormed(positions)
    }

    /** A fresh session: 10000 in cash and no positions. */
    constructor ()
      ensures Valid() && cash == InitialCash && positions == []
    {
      cash := InitialCash;
      positions := [];
    }

    /**
     * The BUY branch of `executeTrade`: all or nothing. Cash is debited by
     * exactly `quantity * price`, never below 0.
     */
    method Buy(symbol: string, quantity: int, price: real) returns (accepted: bool)
      requires Valid() && quantity > 0 && price >= 0.0
      modifies this
      ensures Valid()
      ensures accepted == CanAfford(old(cash), quantity, price)
      ensures accepted ==> cash == old(cash) - quantity as real * price
                           && positions == Bought(old(positions), symbol, quantity, price)
      ensures !accepted ==> cash == old(cash) && positions == old(positions)
    {
      var cost := quantity as real * price;
      if cost > cash {
        return false;
      }
      BoughtWellFormed(positions, symbol, quantity, price);
      cash := cash - cost;
      var existing := Find(positions, symbol);
      if existing.Some? {
        var totalCost := existing.value.quantity as real * existing.value.averageEntryPrice + cost;
        var totalQty := existing.value.quantity + quantity;
        positions := Reprice(positions, symbol, totalQty, totalCost / totalQty as real);
      } else {
        positions := positions + [Position(symbol, quantity, price)];
      }
      accepted := true;
    }

    /**
     * The SELL branch of `executeTrade`: rejected unless enough is held; the
     * proceeds are credited; a full sell deletes the position.
     */
    method Sell(symbol: string, quantity: int, price: real) returns (accepted: bool)
      requires Valid() && quantity > 0 && price >= 0.0
      modifies this
      ensures Valid()
      ensures accepted == CanDeliver(old(positions), symbol, quantity)
      ensures accepted ==> cash == old(cash) + quantity as real * price
                           && positions == Sold(old(positions), symbol, quantity)
      ensures !accepted ==> cash == old(cash) && positions == old(positions)
    {
      var existing := Find(positions, symbol);
      if existing.None? || existing.value.quantity < quantity {
        return false;
      }
      SoldWellFormed(positions, symbol, quantity);
      var revenue := quantity as real * price;
      cash := cash + revenue;
      if existing.value.quantity == quantity {
        positions := Without(positions, symbol);
      } else {
        positions := Decrement(positions, symbol, quantity);
      }
      accepted := true;
    }

    /**
     * `executeTrade(quantity)` for the selected instrument and the dialog's
     * order side; with no instrument selected nothing happens.
     */
    method ExecuteTrade(side: OrderType, selected: Option<Stock>, quantity: int) returns (accepted: bool)
      requires Valid() && quantity > 0
      requires selected.Some? ==> selected.value.price >= 0.0
      modifies this
      ensures Valid()
      ensures selected.None? ==> !accepted
      ensures !accepted ==> cash == old(cash) && positions == old(positions)
      ensures selected.Some? && side.Buy? ==>
                var s := selected.value;
                accepted == CanAfford(old(cash), quantity, s.price)
                && (accepted ==> cash == old(cash) - quantity as real * s.price
                                 && positions == Bought(old(positions), s.symbol, quantity, s.price))
      ensures selected.Some? && side.Sell? ==>
                var s := selected.value;
                accepted == CanDeliver(old(positions), s.symbol, quantity)
                && (accepted ==> cash == old(cash) + quantity as real * s.price
                                 && positions == Sold(old(positions), s.symbol, quantity))
    {
      if selected.None? {
        return false;
      }
      var stock := selected.value;
      if side.Buy? {
        accepted := Buy(stock.symbol, quantity, stock.price);
      } else {
        accepted := Sell(stock.symbol, quantity, stock.price);
      }
    }
  }

  /** The worked example, run against the ledger object. */
  method RunScenario() returns (ledger: Ledger)
    ensures fresh(ledger) && ledger.Valid()
    ensures ledger.cash == 10250.0 && ledger.positions == []
  {
    ThreeTradeScenario();
    ledger := new Ledger();
    var ok := ledger.Buy("SPY", 10, 100.0);
    assert ok && ledger.cash == 9000.0;
    ok := ledger.Buy("SPY", 5, 110.0);
    assert ok && ledger.cash == 8450.0;
    ok := ledger.Sell("SPY", 15, 120.0);
    assert ok;
  }
}

=== FILE: portfolio_view.dfy ===
/**
 * The valuation shown by the portfolio screen: the price of a symbol on the
 * watch-list, the equity of all positions, the net liquidation value, and
 * each position's market value, cost basis and profit or loss.
 */
module PortfolioView {
  import opened Types
  import opened Ledger

  /** `stocks.find(s => s.symbol === symbol)`. */
  function FindStock(stocks: seq<Stock>, symbol: string): (r: Option<Stock>)
    ensures r.Some? ==> r.value in stocks && r.value.symbol == symbol
    ensures r.None? <==> forall i :: 0 <= i < |stocks| ==> stocks[i].symbol != symbol
  {
    if |stocks| == 0 then None
    else if stocks[0].symbol == symbol then Some(stocks[0])
    else FindStock(stocks[1..], symbol)
  }

  /** `stocks.find(s => s.symbol === symbol)?.price || 0`: an unlisted symbol is priced at 0. */
  function StockPrice(stocks: seq<Stock>, symbol: string): (p: real)
    ensures (forall i :: 0 <= i < |stocks| ==> stocks[i].symbol != symbol) ==> p == 0.0
  {
    match FindStock(stocks, symbol)
    case Some(s) => s.price
    case None => 0.0
  }

  /** A listed symbol is priced by the first instrument carrying it. */
  lemma {:induction false} StockPriceFirst(stocks: seq<Stock>, symbol: string, k: int)
    requires 0 <= k < |stocks| && stocks[k].symbol == symbol
    requires forall j :: 0 <= j < k ==> stocks[j].symbol != symbol
    ensures StockPrice(stocks, symbol) == stocks[k].price
  {
    if k > 0 {
      StockPriceFirst(stocks[1..], symbol, k - 1);
    }
  }

  /** With non-negative listed prices every symbol's price is non-negative. */
  lemma PriceNonNegative(stocks: seq<Stock>, symbol: string)
    requires forall i :: 0 <= i < |stocks| ==> stocks[i].price >= 0.0
    ensures StockPrice(stocks, symbol) >= 0.0
  {
  }

  /** A position's market value at the listed price; an unlisted symbol counts as 0. */
  function Worth(pos: Position, stocks: seq<Stock>): real {
    pos.quantity as real * StockPrice(stocks, pos.symbol)
  }

  /** The market value of the first `n` positions, summed in list order as the `reduce` does. */
  function EquityUpTo(ps: seq<Position>, stocks: seq<Stock>, n: nat): real
    requires n <= |ps|
  {
    if n == 0 then 0.0 else EquityUpTo(ps, stocks, n - 1) + Worth(ps[n - 1], stocks)
  }

  /** `portfolio.reduce((sum, pos) => sum + pos.quantity * getStockPrice(pos.symbol), 0)`. */
  function TotalEquity(ps: seq<Position>, stocks: seq<Stock>): real {
    EquityUpTo(ps, stocks, |ps|)
  }

  /** The net liquidation value `totalEquity + cash`. */
  function TotalValue(ps: seq<Position>, stocks: seq<Stock>, cash: real): real {
    TotalEquity(ps, stocks) + cash
  }

  /** With no positions the net liquidation value is the cash. */
  lemma EmptyPortfolioValue(stocks: seq<Stock>, cash: real)
    ensures TotalValue([], stocks, cash) == cash
  {
  }

  /** Two lists that agree on their first `n` positions have the same equity up to `n`. */
  lemma {:induction false} EquityAgree(ps: seq<Position>, qs: seq<Position>, stocks: seq<Stock>, n: nat)
    requires n <= |ps| && n <= |qs|
    requires forall i :: 0 <= i < n ==> ps[i] == qs[i]
    ensures EquityUpTo(ps, stocks, n) == EquityUpTo(qs, stocks, n)
  {
    if n > 0 {
      EquityAgree(ps, qs, stocks, n - 1);
    }
  }

  /** Opening a new position at the end adds its market value to the equity. */
  lemma EquityAppend(ps: seq<Position>, stocks: seq<Stock>, p: Position)
    ensures TotalEquity(ps + [p], stocks) == TotalEquity(ps, stocks) + Worth(p, stocks)
  {
    EquityAgree(ps + [p], ps, stocks, |ps|);
  }

  /** A position in a symbol that is not listed adds nothing to the equity. */
  lemma UnlistedAddsNothing(ps: seq<Position>, stocks: seq<Stock>, p: Position)
    requires forall i :: 0 <= i < |stocks| ==> stocks[i].symbol != p.symbol
    ensures TotalEquity(ps + [p], stocks) == TotalEquity(ps, stocks)
  {
    EquityAppend(ps, stocks, p);
  }

  /** Replacing a position among the first `n` changes their equity by the difference of the market values. */
  lemma {:induction false} EquityUpdateUpTo(ps: seq<Position>, k: int, p: Position, stocks: seq<Stock>, n: nat)
    requires 0 <= k < n <= |ps|
    ensures EquityUpTo(ps[k := p], stocks, n) == EquityUpTo(ps, stocks, n) - Worth(ps[k], stocks) + Worth(p, stocks)
  {
    if n == k + 1 {
      EquityAgree(ps[k := p], ps, stocks, k);
    } else {
      EquityUpdateUpTo(ps, k, p, stocks, n - 1);
    }
  }

  /** Replacing one position changes the equity by the difference of their market values. */
  lemma EquityUpdate(ps: seq<Position>, k: int, p: Position, stocks: seq<Stock>)
    requires 0 <= k < |ps|
    ensures TotalEquity(ps[k := p], stocks) == TotalEquity(ps, stocks) - Worth(ps[k], stocks) + Worth(p, stocks)
  {
    EquityUpdateUpTo(ps, k, p, stocks, |ps|);
  }

  /** Deleting position `k` lowers the equity of the first `n + 1` positions by its market value. */
  lemma {:induction false} EquityRemoveUpTo(ps: seq<Position>, k: int, stocks: seq<Stock>, n: nat)
    requires 0 <= k <= n < |ps|
    ensures EquityUpTo(ps[..k] + ps[k + 1..], stocks, n) == EquityUpTo(ps, stocks, n + 1) - Worth(ps[k], stocks)
  {
    var r := ps[..k] + ps[k + 1..];
    if n == k {
      EquityAgree(r, ps, stocks, k);
    } else {
      EquityRemoveUpTo(ps, k, stocks, n - 1);
      assert r[n - 1] == ps[n];
    }
  }

  /** Deleting one position lowers the equity by its market value. */
  lemma EquityRemove(ps: seq<Position>, k: int, stocks: seq<Stock>)
    requires 0 <= k < |ps|
    ensures TotalEquity(ps[..k] + ps[k + 1..], stocks) == TotalEquity(ps, stocks) - Worth(ps[k], stocks)
  {
    EquityRemoveUpTo(ps, k, stocks, |ps| - 1);
  }

  /** With non-negative quantities and listed prices, the equity of the first `n` positions is not negative. */
  lemma {:induction false} EquityUpToNonNegative(ps: seq<Position>, stocks: seq<Stock>, n: nat)
    requires n <= |ps|
    requires forall i :: 0 <= i < |ps| ==> ps[i].quantity >= 0
    requires forall i :: 0 <= i < |stocks| ==> stocks[i].price >= 0.0
    ensures EquityUpTo(ps, stocks, n) >= 0.0
  {
    if n > 0 {
      EquityUpToNonNegative(ps, stocks, n - 1);
      PriceNonNegative(stocks, ps[n - 1].symbol);
      assert Worth(ps[n - 1], stocks) >= 0.0;
    }
  }

  /** With non-negative quantities and listed prices, the equity is not negative. */
  lemma EquityNonNegative(ps: seq<Position>, stocks: seq<Stock>)
    requires forall i :: 0 <= i < |ps| ==> ps[i].quantity >= 0
    requires forall i :: 0 <= i < |stocks| ==> stocks[i].price >= 0.0
    ensures TotalEquity(ps, stocks) >= 0.0
  {
    EquityUpToNonNegative(ps, stocks, |ps|);
  }

  /** Market values at one price add up like the quantities do. */
  lemma WorthSplit(held: int, traded: int, price: real)
    ensures (held + traded) as real * price == held as real * price + traded as real * price
  {
  }

  /** The bookkeeping step shared by the trade lemmas, kept apart from the products it is applied to. */
  lemma Rebalance(after: real, before: real, oldWorth: real, newWorth: real, delta: real)
    requires after == before - oldWorth + newWorth && newWorth + delta == oldWorth
    ensures after + delta == before
  {
  }

  /** A position's market value is its quantity at its symbol's listed price. */
  lemma WorthOf(pos: Position, symbol: string, quantity: int, stocks: seq<Stock>)
    requires pos.symbol == symbol && pos.quantity == quantity
    ensures Worth(pos, stocks) == quantity as real * StockPrice(stocks, symbol)
  {
  }

  /** Adding to a position adds the extra quantity's market value. */
  lemma WorthGrow(pos: Position, p: Position, extra: int, stocks: seq<Stock>)
    requires p.symbol == pos.symbol && p.quantity == pos.quantity + extra
    ensures Worth(p, stocks) == Worth(pos, stocks) + extra as real * StockPrice(stocks, pos.symbol)
  {
    WorthSplit(pos.quantity, extra, StockPrice(stocks, pos.symbol));
  }

  /** Taking from a position removes the taken quantity's market value. */
  lemma WorthShrink(pos: Position, p: Position, taken: int, stocks: seq<Stock>)
    requires p.symbol == pos.symbol && p.quantity == pos.quantity - taken
    ensures Worth(p, stocks) + taken as real * StockPrice(stocks, pos.symbol) == Worth(pos, stocks)
  {
    WorthSplit(p.quantity, taken, StockPrice(stocks, pos.symbol));
  }

  /** Opening a position at the listed price raises the equity by its cost. */
  lemma EquityOpen(ps: seq<Position>, after: seq<Position>, stocks: seq<Stock>, symbol: string, quantity: int)
    requires after == ps + [Position(symbol, quantity, StockPrice(stocks, symbol))]
    ensures TotalEquity(after, stocks) == TotalEquity(ps, stocks) + quantity as real * StockPrice(stocks, symbol)
  {
    var p := Position(symbol, quantity, StockPrice(stocks, symbol));
    WorthOf(p, symbol, quantity, stocks);
    EquityAppend(ps, stocks, p);
  }

  /** Adding to one position raises the equity by the bought quantity at the listed price. */
  lemma EquityBuyMore(ps: seq<Position>, after: seq<Position>, stocks: seq<Stock>, symbol: string,
                      k: int, bought: int, average: real)
    requires 0 <= k < |ps| && ps[k].symbol == symbol
    requires after == ps[k := Position(symbol, ps[k].quantity + bought, average)]
    ensures TotalEquity(after, stocks) == TotalEquity(ps, stocks) + bought as real * StockPrice(stocks, symbol)
  {
    var p := Position(symbol, ps[k].quantity + bought, average);
    WorthGrow(ps[k], p, bought, stocks);
    EquityUpdate(ps, k, p, stocks);
    Rebalance(TotalEquity(ps, stocks), TotalEquity(after, stocks), Worth(p, stocks), Worth(ps[k], stocks),
              bought as real * StockPrice(stocks, symbol));
  }

  /** Closing one position lowers the equity by its quantity at the listed price. */
  lemma EquityClose(ps: seq<Position>, after: seq<Position>, stocks: seq<Stock>, symbol: string, k: int, sold: int)
    requires 0 <= k < |ps| && ps[k].symbol == symbol && ps[k].quantity == sold
    requires after == ps[..k] + ps[k + 1..]
    ensures TotalEquity(after, stocks) + sold as real * StockPrice(stocks, symbol) == TotalEquity(ps, stocks)
  {
    WorthOf(ps[k], symbol, sold, stocks);
    EquityRemove(ps, k, stocks);
  }

  /** Taking part of one position lowers the equity by the taken quantity at the listed price. */
  lemma EquitySellSome(ps: seq<Position>, after: seq<Position>, stocks: seq<Stock>, symbol: string, k: int, sold: int)
    requires 0 <= k < |ps| && ps[k].symbol == symbol
    requires after == ps[k := ps[k].(quantity := ps[k].quantity - sold)]
    ensures TotalEquity(after, stocks) + sold as real * StockPrice(stocks, symbol) == TotalEquity(ps, stocks)
  {
    var p := ps[k].(quantity := ps[k].quantity - sold);
    WorthShrink(ps[k], p, sold, stocks);
    EquityUpdate(ps, k, p, stocks);
    Rebalance(TotalEquity(after, stocks), TotalEquity(ps, stocks), Worth(ps[k], stocks), Worth(p, stocks),
              sold as real * StockPrice(stocks, symbol));
  }

  /** Equity gained against cash paid: the net liquidation value is unchanged. */
  lemma ValueAfterBuy(ps: seq<Position>, after: seq<Position>, stocks: seq<Stock>, cash: real, cost: real)
    requires TotalEquity(after, stocks) == TotalEquity(ps, stocks) + cost
    ensures TotalValue(after, stocks, cash - cost) == TotalValue(ps, stocks, cash)
  {
  }

  /** Equity lost against cash received: the net liquidation value is unchanged. */
  lemma ValueAfterSell(ps: seq<Position>, after: seq<Position>, stocks: seq<Stock>, cash: real, proceeds: real)
    requires TotalEquity(after, stocks) + proceeds == TotalEquity(ps, stocks)
    ensures TotalValue(after, stocks, cash + proceeds) == TotalValue(ps, stocks, cash)
  {
  }

  /** A buy of a symbol not held, at the listed price, raises the equity by its cost. */
  lemma EquityAfterOpen(ps: seq<Position>, stocks: seq<Stock>, symbol: string, quantity: int)
    requires WellFormed(ps) && quantity > 0 && Find(ps, symbol).None?
    ensures TotalEquity(Bought(ps, symbol, quantity, StockPrice(stocks, symbol)), stocks)
            == TotalEquity(ps, stocks) + quantity as real * StockPrice(stocks, symbol)
  {
    EquityOpen(ps, Bought(ps, symbol, quantity, StockPrice(stocks, symbol)), stocks, symbol, quantity);
  }

  /** A buy of a held symbol, at the listed price, raises the equity by its cost. */
  lemma EquityAfterAdd(ps: seq<Position>, stocks: seq<Stock>, symbol: string, quantity: int)
    requires WellFormed(ps) && quantity > 0 && Find(ps, symbol).Some?
    ensures TotalEquity(Bought(ps, symbol, quantity, StockPrice(stocks, symbol)), stocks)
            == TotalEquity(ps, stocks) + quantity as real * StockPrice(stocks, symbol)
  {
    var price := StockPrice(stocks, symbol);
    var k := HeldAt(ps, symbol);
    BoughtAt(ps, symbol, quantity, price, k);
    EquityBuyMore(ps, Bought(ps, symbol, quantity, price), stocks, symbol, k, quantity,
                  WeightedAverage(ps[k], quantity, price));
  }

  /** An accepted buy at the listed price raises the equity by its cost. */
  lemma EquityAfterBuy(ps: seq<Position>, stocks: seq<Stock>, symbol: string, quantity: int)
    requires WellFormed(ps) && quantity > 0
    ensures TotalEquity(Bought(ps, symbol, quantity, StockPrice(stocks, symbol)), stocks)
            == TotalEquity(ps, stocks) + quantity as real * StockPrice(stocks, symbol)
  {
    if Find(ps, symbol).None? {
      EquityAfterOpen(ps, stocks, symbol, quantity);
    } else {
      EquityAfterAdd(ps, stocks, symbol, quantity);
    }
  }

  /**
   * An accepted buy at the listed price leaves the net liquidation value
   * unchanged: cash falls by exactly what the equity gains.
   */
  lemma BuyKeepsTotalValue(ps: seq<Position>, stocks: seq<Stock>, cash: real, symbol: string, quantity: int)
    requires WellFormed(ps) && quantity > 0
    ensures var price := StockPrice(stocks, symbol);
            TotalValue(Bought(ps, symbol, quantity, price), stocks, cash - quantity as real * price)
            == TotalValue(ps, stocks, cash)
  {
    EquityAfterBuy(ps, stocks, symbol, quantity);
    ValueAfterBuy(ps, Bought(ps, symbol, quantity, StockPrice(stocks, symbol)), stocks, cash,
                  quantity as real * StockPrice(stocks, symbol));
  }

  /** A sell of the whole holding, at the listed price, lowers the equity by the proceeds. */
  lemma EquityAfterClose(ps: seq<Position>, stocks: seq<Stock>, symbol: string, quantity: int, k: int)
    requires UniqueSymbols(ps) && 0 <= k < |ps| && ps[k].symbol == symbol && ps[k].quantity == quantity
    ensures Find(ps, symbol).Some?
    ensures TotalEquity(Sold(ps, symbol, quantity), stocks) + quantity as real * StockPrice(stocks, symbol)
            == TotalEquity(ps, stocks)
  {
    SoldAt(ps, symbol, quantity, k);
    EquityClose(ps, Sold(ps, symbol, quantity), stocks, symbol, k, quantity);
  }

  /** A sell of part of the holding, at the listed price, lowers the equity by the proceeds. */
  lemma EquityAfterReduce(ps: seq<Position>, stocks: seq<Stock>, symbol: string, quantity: int, k: int)
    requires UniqueSymbols(ps) && 0 <= k < |ps| && ps[k].symbol == symbol && ps[k].quantity != quantity
    ensures Find(ps, symbol).Some?
    ensures TotalEquity(Sold(ps, symbol, quantity), stocks) + quantity as real * StockPrice(stocks, symbol)
            == TotalEquity(ps, stocks)
  {
    SoldAt(ps, symbol, quantity, k);
    EquitySellSome(ps, Sold(ps, symbol, quantity), stocks, symbol, k, quantity);
  }

  /** An accepted sell at the listed price lowers the equity by the proceeds. */
  lemma EquityAfterSell(ps: seq<Position>, stocks: seq<Stock>, symbol: string, quantity: int)
    requires WellFormed(ps) && CanDeliver(ps, symbol, quantity)
    ensures TotalEquity(Sold(ps, symbol, quantity), stocks) + quantity as real * StockPrice(stocks, symbol)
            == TotalEquity(ps, stocks)
  {
    var k := HeldAt(ps, symbol);
    if ps[k].quantity == quantity {
      EquityAfterClose(ps, stocks, symbol, quantity, k);
    } else {
      EquityAfterReduce(ps, stocks, symbol, quantity, k);
    }
  }

  /**
   * An accepted sell at the listed price leaves the net liquidation value
   * unchanged: cash rises by exactly what the equity loses.
   */
  lemma SellKeepsTotalValue(ps: seq<Position>, stocks: seq<Stock>, cash: real, symbol: string, quantity: int)
    requires WellFormed(ps) && CanDeliver(ps, symbol, quantity)
    ensures var price := StockPrice(stocks, symbol);
            TotalValue(Sold(ps, symbol, quantity), stocks, cash + quantity as real * price)
            == TotalValue(ps, stocks, cash)
  {
    EquityAfterSell(ps, stocks, symbol, quantity);
    ValueAfterSell(ps, Sold(ps, symbol, quantity), stocks, cash, quantity as real * StockPrice(stocks, symbol));
  }

  /** One row of the positions table. */
  datatype Row = Row(currentPrice: real, value: real, costBasis: real, pl: real)

  /** The row computed for a position: price, market value, cost basis, profit or loss. */
  function Valuation(pos: Position, stocks: seq<Stock>): (row: Row)
    ensures row.currentPrice == StockPrice(stocks, pos.symbol)
    ensures row.value == Worth(pos, stocks)
    ensures row.costBasis == pos.quantity as real * pos.averageEntryPrice
    ensures row.pl == pos.quantity as real * (row.currentPrice - pos.averageEntryPrice)
  {
    var currentPrice := StockPrice(stocks, pos.symbol);
    var value := pos.quantity as real * currentPrice;
    var costBasis := pos.quantity as real * pos.averageEntryPrice;
    Row(currentPrice, value, costBasis, value - costBasis)
  }

  /** `(pl / costBasis) * 100`, only defined for a non-zero cost basis. */
  function PlPercent(row: Row): real
    requires row.costBasis != 0.0
  {
    row.pl / row.costBasis * 100.0
  }

  /**
   * For a held position the sign shown (green "+" or red) is that of the
   * price move: the profit is non-negative exactly when the current price is
   * at least the average entry price.
   */
  lemma ProfitSign(pos: Position, stocks: seq<Stock>)
    requires pos.quantity > 0
    ensures var row := Valuation(pos, stocks);
            row.pl >= 0.0 <==> row.currentPrice >= pos.averageEntryPrice
  {
    var row := Valuation(pos, stocks);
    var d := row.currentPrice - pos.averageEntryPrice;
    var q := pos.quantity as real;
    assert row.pl == q * d;
    if d >= 0.0 {
      assert q * d >= 0.0;
    } else {
      assert q * (-d) > 0.0;
    }
  }

  /** The percentage is the per-share price move relative to the average entry price. */
  lemma PlPercentIsReturn(pos: Position, stocks: seq<Stock>)
    requires pos.quantity > 0 && pos.averageEntryPrice != 0.0
    ensures var row := Valuation(pos, stocks);
            row.costBasis != 0.0
            && PlPercent(row) == (row.currentPrice - pos.averageEntryPrice) / pos.averageEntryPrice * 100.0
  {
    var row := Valuation(pos, stocks);
    var q := pos.quantity as real;
    var a := pos.averageEntryPrice;
    var d := row.currentPrice - a;
    assert row.costBasis == q * a;
    assert q * a != 0.0;
    assert row.pl == q * d;
    CancelFactor(q, d, a);
  }

  /** A common non-zero factor cancels from a quotient. */
  lemma CancelFactor(q: real, d: real, a: real)
    requires q != 0.0 && a != 0.0
    ensures (q * d) / (q * a) == d / a
  {
    var r := d / a;
    assert d == r * a;
    assert q * d == r * (q * a);
  }
}

=== FILE: registry.dfy ===
/**
 * The instrument registry of App.tsx: the watch-list, the merge of a batch
 * quote refresh into it, and the search that adds a looked-up instrument
 * when no listed symbol matches the query.
 *
 * The provider's answers are inputs: a refresh delivers `None` on failure
 * or a map from symbol to quote, a lookup delivers `None` (not found) or an
 * instrument. The charts regenerated by a merge consume one sequence of
 * random draws per instrument.
 */
module Registry {
  import opened Types
  import opened Strings
  import opened Constants

  /** `quotes[symbol] || quotes[symbol.toUpperCase()]`: exact key first, then the upper-cased one. */
  function LookupQuote(quotes: map<string, Quote>, symbol: string): (r: Option<Quote>)
    ensures symbol in quotes ==> r == Some(quotes[symbol])
    ensures symbol !in quotes && Upper(symbol) in quotes ==> r == Some(quotes[Upper(symbol)])
    ensures r.None? <==> symbol !in quotes && Upper(symbol) !in quotes
  {
    if symbol in quotes then Some(quotes[symbol])
    else if Upper(symbol) in quotes then Some(quotes[Upper(symbol)])
    else None
  }

  /** `quote.volume || stock.volume`: an absent or empty new volume keeps the old one. */
  function MergedVolume(quoteVolume: Option<string>, previous: string): (v: string)
    ensures quoteVolume.Some? && quoteVolume.value != "" ==> v == quoteVolume.value
    ensures quoteVolume.None? || quoteVolume.value == "" ==> v == previous
  {
    match quoteVolume
    case Some(given) => if given != "" then given else previous
    case None => previous
  }

  /** One instrument after the merge, given its quote (if any) and its chart's draws. */
  function MergeStock(stock: Stock, quote: Option<Quote>, rand: seq<real>): Stock
    requires |rand| == RandomDraws
  {
    match quote
    case None => stock
    case Some(q) =>
      stock.(price := q.price, change := q.change, changePercent := q.changePercent,
             volume := MergedVolume(q.volume, stock.volume), history := HistoryOf(q.price, rand))
  }

  /** One sequence of chart draws per listed instrument. */
  predicate DrawsFor(stocks: seq<Stock>, rand: seq<seq<real>>) {
    |rand| == |stocks| && forall i :: 0 <= i < |rand| ==> |rand[i]| == RandomDraws
  }

  /**
   * The `prevStocks.map(...)` of a successful refresh. The watch-list keeps
   * its length, order, symbols and display data; an instrument without a
   * quote is unchanged; a quoted one takes the quote's price, change and
   * change percentage, keeps its volume unless the quote brings a non-empty
   * one, and gets a freshly generated chart around the new price that ends
   * at it.
   */
  function MergeQuotes(stocks: seq<Stock>, quotes: map<string, Quote>, rand: seq<seq<real>>): (r: seq<Stock>)
    requires DrawsFor(stocks, rand)
    ensures |r| == |stocks|
    ensures forall i :: 0 <= i < |r| ==>
              r[i].symbol == stocks[i].symbol && r[i].name == stocks[i].name
              && r[i].description == stocks[i].description
    ensures forall i :: 0 <= i < |r| && LookupQuote(quotes, stocks[i].symbol).None? ==> r[i] == stocks[i]
    ensures forall i :: 0 <= i < |r| && LookupQuote(quotes, stocks[i].symbol).Some? ==>
              var q := LookupQuote(quotes, stocks[i].symbol).value;
              r[i].price == q.price && r[i].change == q.change && r[i].changePercent == q.changePercent
              && r[i].volume == MergedVolume(q.volume, stocks[i].volume)
              && r[i].history == HistoryOf(q.price, rand[i])
              && |r[i].history| == SampleCount
              && r[i].history[SampleCount - 1] == Sample("16:00", q.price)
  {
    seq(|stocks|, i requires 0 <= i < |stocks| => MergeStock(stocks[i], LookupQuote(quotes, stocks[i].symbol), rand[i]))
  }

  /**
   * `refreshMarketData` after the fetch: a failed fetch (`null`) leaves the
   * watch-list untouched, a successful one is merged.
   */
  function RefreshMarketData(stocks: seq<Stock>, fetched: Option<map<string, Quote>>, rand: seq<seq<real>>): (r: seq<Stock>)
    requires DrawsFor(stocks, rand)
    ensures fetched.None? ==> r == stocks
    ensures fetched.Some? ==> r == MergeQuotes(stocks, fetched.value, rand)
    ensures |r| == |stocks|
  {
    match fetched
    case None => stocks
    case Some(quotes) => MergeQuotes(stocks, quotes, rand)
  }

  /** The quote-derived fields of an instrument (everything but the chart). */
  function QuoteFields(s: Stock): (real, real, real, string) {
    (s.price, s.change, s.changePercent, s.volume)
  }

  /** A refresh whose quotes match no listed symbol changes nothing. */
  lemma MergeNoMatch(stocks: seq<Stock>, quotes: map<string, Quote>, rand: seq<seq<real>>)
    requires DrawsFor(stocks, rand)
    requires forall i :: 0 <= i < |stocks| ==> stocks[i].symbol !in quotes && Upper(stocks[i].symbol) !in quotes
    ensures MergeQuotes(stocks, quotes, rand) == stocks
  {
    var r := MergeQuotes(stocks, quotes, rand);
    assert forall i :: 0 <= i < |stocks| ==> r[i] == stocks[i];
  }

  /**
   * Merging the same quotes twice gives the same price, change, change
   * percentage and volume as merging them once, whatever the charts' draws.
   */
  lemma MergeIdempotent(stocks: seq<Stock>, quotes: map<string, Quote>, rand1: seq<seq<real>>, rand2: seq<seq<real>>)
    requires DrawsFor(stocks, rand1) && DrawsFor(stocks, rand2)
    ensures var once := MergeQuotes(stocks, quotes, rand1);
            var twice := MergeQuotes(once, quotes, rand2);
            |twice| == |once|
            && forall i :: 0 <= i < |once| ==> QuoteFields(twice[i]) == QuoteFields(once[i])
  {
    var once := MergeQuotes(stocks, quotes, rand1);
    assert DrawsFor(once, rand2);
    var twice := MergeQuotes(once, quotes, rand2);
    forall i | 0 <= i < |once|
      ensures QuoteFields(twice[i]) == QuoteFields(once[i])
    {
      assert once[i].symbol == stocks[i].symbol;
    }
  }

  /** A merge keeps the watch-list's symbols, so it keeps them distinct. */
  lemma MergeKeepsDistinct(stocks: seq<Stock>, quotes: map<string, Quote>, rand: seq<seq<real>>)
    requires DrawsFor(stocks, rand) && DistinctSymbols(stocks)
    ensures DistinctSymbols(MergeQuotes(stocks, quotes, rand))
  {
  }

  /** No two listed instruments share a symbol up to letter case. */
  predicate DistinctSymbols(stocks: seq<Stock>) {
    forall i, j :: 0 <= i < j < |stocks| ==> Upper(stocks[i].symbol) != Upper(stocks[j].symbol)
  }

  /** `stocks.find(s => s.symbol.toUpperCase() === query.toUpperCase())`. */
  function FindIgnoringCase(stocks: seq<Stock>, query: string): (r: Option<Stock>)
    ensures r.Some? ==> r.value in stocks && Upper(r.value.symbol) == Upper(query)
    ensures r.None? <==> forall i :: 0 <= i < |stocks| ==> Upper(stocks[i].symbol) != Upper(query)
  {
    if |stocks| == 0 then None
    else if Upper(stocks[0].symbol) == Upper(query) then Some(stocks[0])
    else FindIgnoringCase(stocks[1..], query)
  }

  /**
   * `handleSearchSubmit` after the lookup: a blank query or one matching a
   * listed symbol (ignoring case) leaves the watch-list as it is and the
   * lookup is not consulted; otherwise a found instrument is put in front.
   */
  function SearchSubmit(stocks: seq<Stock>, query: string, lookup: Option<Stock>): (r: seq<Stock>)
    ensures IsBlank(query) || FindIgnoringCase(stocks, query).Some? || lookup.None? ==> r == stocks
    ensures !IsBlank(query) && FindIgnoringCase(stocks, query).None? && lookup.Some? ==>
              |r| == |stocks| + 1 && r[0] == lookup.value && r[1..] == stocks
  {
    if IsBlank(query) then stocks
    else if FindIgnoringCase(stocks, query).Some? then stocks
    else match lookup
      case Some(found) => [found] + stocks
      case None => stocks
  }

  /**
   * When the lookup answers with the symbol that was asked for (up to case),
   * two searches for the same symbol in any letter cases add at most one
   * instrument; once it is listed, the second search changes nothing.
   */
  lemma SearchTwiceAddsOnce(stocks: seq<Stock>, q1: string, q2: string, found1: Option<Stock>, found2: Option<Stock>)
    requires Upper(q1) == Upper(q2) && !IsBlank(q1)
    requires found1.Some? ==> Upper(found1.value.symbol) == Upper(q1)
    ensures var once := SearchSubmit(stocks, q1, found1);
            var twice := SearchSubmit(once, q2, found2);
            |twice| <= |stocks| + 1
            && (FindIgnoringCase(stocks, q1).Some? || found1.Some? ==> twice == once)
  {
    var once := SearchSubmit(stocks, q1, found1);
    if FindIgnoringCase(stocks, q1).Some? {
      var s := FindIgnoringCase(stocks, q1).value;
      var i :| 0 <= i < |stocks| && stocks[i] == s;
      assert Upper(stocks[i].symbol) == Upper(q2);
    } else if found1.Some? {
      assert once == [found1.value] + stocks;
      assert Upper(once[0].symbol) == Upper(q2);
    }
  }

  /**
   * The check compares the query, not the symbol the lookup returns: a
   * search for "apple" answered with AAPL, done twice, lists AAPL twice.
   */
  lemma SearchAddsDuplicate()
    ensures var aapl := Stock("AAPL", "APPLE INC", 190.0, 1.0, 0.5, "50M", [], None);
            var once := SearchSubmit([], "apple", Some(aapl));
            var twice := SearchSubmit(once, "apple", Some(aapl));
            DistinctSymbols(once) && twice == [aapl, aapl] && !DistinctSymbols(twice)
  {
    var aapl := Stock("AAPL", "APPLE INC", 190.0, 1.0, 0.5, "50M", [], None);
    assert Upper("apple") == "APPLE";
    assert Upper("AAPL") == "AAPL";
    assert !IsBlank("apple") by { assert !IsSpace("apple"[0]); }
    var once := SearchSubmit([], "apple", Some(aapl));
    assert once == [aapl];
    assert FindIgnoringCase(once, "apple").None?;
  }

  /**
   * The search with the duplicate check applied to the lookup's answer as
   * well: a found instrument whose symbol is already listed (ignoring case)
   * is not added again.
   */
  function SearchSubmitChecked(stocks: seq<Stock>, query: string, lookup: Option<Stock>): (r: seq<Stock>)
    ensures DistinctSymbols(stocks) ==> DistinctSymbols(r)
    ensures r == stocks || (lookup.Some? && r == [lookup.value] + stocks)
  {
    if IsBlank(query) then stocks
    else if FindIgnoringCase(stocks, query).Some? then stocks
    else match lookup
      case Some(found) =>
        if FindIgnoringCase(stocks, found.symbol).Some? then stocks else [found] + stocks
      case None => stocks
  }

  /** The checked search agrees with the original one whenever that one keeps symbols distinct. */
  lemma CheckedSearchAgrees(stocks: seq<Stock>, query: string, lookup: Option<Stock>)
    requires DistinctSymbols(SearchSubmit(stocks, query, lookup))
    ensures SearchSubmitChecked(stocks, query, lookup) == SearchSubmit(stocks, query, lookup)
  {
    if !IsBlank(query) && FindIgnoringCase(stocks, query).None? && lookup.Some? {
      var r := SearchSubmit(stocks, query, lookup);
      assert forall i :: 0 <= i < |stocks| ==> r[i + 1] == stocks[i];
      assert FindIgnoringCase(stocks, lookup.value.symbol).None?;
    }
  }
}

=== FILE: strings.dfy ===
/**
 * The few JavaScript string primitives the core relies on: `toUpperCase`
 * (on ASCII letters), the emptiness test `!s.trim()`, and the decimal
 * rendering of a small natural number inside a template literal.
 */
module Strings {

  /** `c.toUpperCase()` for a single character; only ASCII letters change. */
  function UpperChar(c: char): (u: char)
    ensures 'a' <= c <= 'z' ==> u as int == c as int - 32
    ensures !('a' <= c <= 'z') ==> u == c
    ensures !('a' <= u <= 'z')
  {
    if 'a' <= c <= 'z' then (c as int - 32) as char else c
  }

  /** `s.toUpperCase()`, character by character. */
  function Upper(s: string): (u: string)
    ensures |u| == |s|
    ensures forall i :: 0 <= i < |s| ==> u[i] == UpperChar(s[i])
  {
    seq(|s|, i requires 0 <= i < |s| => UpperChar(s[i]))
  }

  /** Upper-casing twice is upper-casing once. */
  lemma UpperIdempotent(s: string)
    ensures Upper(Upper(s)) == Upper(s)
  {
    assert forall i :: 0 <= i < |s| ==> Upper(Upper(s))[i] == Upper(s)[i];
  }

  /**
   * The characters `String.prototype.trim` removes: ECMAScript white space
   * (tab, vertical tab, form feed, space, no-break space, the byte order
   * mark and the Unicode space separators) and the line terminators.
   */
  predicate IsSpace(c: char) {
    c == ' ' || c == '\t' || c == '\n' || c == '\r' || c == '\U{000B}' || c == '\U{000C}'
    || c == '\U{00A0}' || c == '\U{FEFF}' || c == '\U{1680}' || '\U{2000}' <= c <= '\U{200A}'
    || c == '\U{2028}' || c == '\U{2029}' || c == '\U{202F}' || c == '\U{205F}' || c == '\U{3000}'
  }

  /** `!s.trim()`: the string is empty after trimming, i.e. all white space. */
  predicate IsBlank(s: string) {
    forall i :: 0 <= i < |s| ==> IsSpace(s[i])
  }

  function DigitChar(d: nat): (c: char)
    requires d < 10
    ensures '0' <= c <= '9'
  {
    ('0' as int + d) as char
  }

  /** The decimal digits of `n`, as `${n}` renders a non-negative integer. */
  function DecimalString(n: nat): (s: string)
    ensures |s| >= 1
  {
    if n < 10 then [DigitChar(n)] else DecimalString(n / 10) + [DigitChar(n % 10)]
  }
}

=== FILE: trade_modal.dfy ===
/**
 * The order dialog: it parses the typed quantity, shows the order total and
 * enables CONFIRM only for orders it judges executable. It is the one place
 * where a positive quantity is enforced before the ledger sees the order.
 */
module TradeModal {
  import opened Types
  import opened Ledger

  /** The limit used when the caller passes no `maxQuantity` or `cashAvailable`. */
  const DefaultLimit: int := 999999

  /** `maxQuantity = 999999` when the prop is absent. */
  function MaxQuantity(given: Option<int>): (m: int)
    ensures given.None? ==> m == DefaultLimit
    ensures given.Some? ==> m == given.value
  {
    given.GetOr(DefaultLimit)
  }

  /** `cashAvailable = 999999` when the prop is absent. */
  function CashAvailable(given: Option<real>): (c: real)
    ensures given.None? ==> c == DefaultLimit as real
    ensures given.Some? ==> c == given.value
  {
    given.GetOr(DefaultLimit as real)
  }

  /** `parseInt(quantity) || 0`: a failed parse (NaN) becomes 0. */
  function Qty(parsed: Option<int>): (q: int)
    ensures parsed.None? ==> q == 0
    ensures parsed.Some? ==> q == parsed.value
  {
    match parsed
    case Some(n) => n
    case None => 0
  }

  /** `total = qty * stock.price`. */
  function Total(qty: int, price: real): real {
    qty as real * price
  }

  /** `canExecute`: a positive quantity and, for a buy, a total within the cash; for a sell, a quantity within the holding. */
  predicate CanExecute(side: OrderType, qty: int, price: real, maxQuantity: int, cashAvailable: real) {
    qty > 0 && (if side.Buy? then Total(qty, price) <= cashAvailable else qty <= maxQuantity)
  }

  /**
   * Opened without the two limits, the dialog checks only that the quantity
   * is positive and, for a buy, that the total is at most 999999.
   */
  lemma DefaultLimits(side: OrderType, qty: int, price: real)
    ensures CanExecute(side, qty, price, MaxQuantity(None), CashAvailable(None))
            <==> qty > 0 && (side.Buy? ==> Total(qty, price) <= 999999.0) && (side.Sell? ==> qty <= 999999)
  {
  }

  /** The dialog never enables an order for zero or a negative quantity, on either side. */
  lemma GateNeedsPositive(side: OrderType, qty: int, price: real, maxQuantity: int, cashAvailable: real)
    requires CanExecute(side, qty, price, maxQuantity, cashAvailable)
    ensures qty > 0
  {
  }

  /**
   * Wired as App.tsx wires it (`cashAvailable = cash`,
   * `maxQuantity = getOwnedQuantity(symbol)`), the dialog enables exactly
   * the orders of positive quantity that the ledger accepts: a buy within
   * the cash, a sell within the holding.
   */
  lemma GateMatchesLedger(ps: seq<Position>, cash: real, symbol: string, qty: int, price: real)
    requires WellFormed(ps) && qty > 0
    ensures CanExecute(Buy, qty, price, OwnedQuantity(ps, symbol), cash) <==> CanAfford(cash, qty, price)
    ensures CanExecute(Sell, qty, price, OwnedQuantity(ps, symbol), cash) <==> CanDeliver(ps, symbol, qty)
  {
    if Find(ps, symbol).Some? {
      var held := Find(ps, symbol).value;
      var k :| 0 <= k < |ps| && ps[k] == held;
      OwnedQuantityAt(ps, symbol, k);
    }
  }

  /** Every enabled order reaches the ledger as one it accepts. */
  lemma GateSound(ps: seq<Position>, cash: real, side: OrderType, symbol: string, qty: int, price: real)
    requires WellFormed(ps)
    requires CanExecute(side, qty, price, OwnedQuantity(ps, symbol), cash)
    ensures side.Buy? ==> CanAfford(cash, qty, price)
    ensures side.Sell? ==> CanDeliver(ps, symbol, qty)
  {
    GateMatchesLedger(ps, cash, symbol, qty, price);
  }

  /**
   * CONFIRM: the dialog calls `executeTrade(qty)` only while `canExecute`
   * holds, so the trade is accepted: a buy debits the cost and a sell
   * credits the proceeds.
   */
  method Confirm(ledger: Ledger, side: OrderType, stock: Stock, parsed: Option<int>) returns (accepted: bool)
    requires ledger.Valid() && stock.price >= 0.0
    requires CanExecute(side, Qty(parsed), stock.price, OwnedQuantity(ledger.positions, stock.symbol), ledger.cash)
    modifies ledger
    ensures ledger.Valid() && accepted
    ensures side.Buy? ==>
              ledger.cash == old(ledger.cash) - Qty(parsed) as real * stock.price
              && ledger.positions == Bought(old(ledger.positions), stock.symbol, Qty(parsed), stock.price)
    ensures side.Sell? ==>
              ledger.cash == old(ledger.cash) + Qty(parsed) as real * stock.price
              && ledger.positions == Sold(old(ledger.positions), stock.symbol, Qty(parsed))
  {
    GateSound(ledger.positions, ledger.cash, side, stock.symbol, Qty(parsed), stock.price);
    accepted := ledger.ExecuteTrade(side, Some(stock), Qty(parsed));
  }
}

=== FILE: types.dfy ===
/**
 * The records the trading front-end passes around: instruments with their
 * quote and display data, portfolio positions, the partial quotes delivered
 * by a market-data refresh, and the side of an order.
 */
module Types {

  /** A value that may be absent (JavaScript `undefined` / `null`). */
  datatype Option<+T> = None | Some(value: T) {
    /** The value, or `default` when absent. */
    function GetOr(default: T): T {
      match this
      case Some(v) => v
      case None => default
    }
  }

  /** One point of the intraday chart: a time label and a price. */
  datatype Sample = Sample(time: string, price: real)

  /**
   * An instrument of the watch-list (`StockData`). Prices are exact reals;
   * `volume` is an opaque display string.
   */
  datatype Stock = Stock(
    symbol: string,
    name: string,
    price: real,
    change: real,
    changePercent: real,
    volume: string,
    history: seq<Sample>,
    description: Option<string>)

  /** A holding of the ledger (`PortfolioPosition`). */
  datatype Position = Position(symbol: string, quantity: int, averageEntryPrice: real)

  /** One entry of a batch quote refresh: `volume` may be missing. */
  datatype Quote = Quote(price: real, change: real, changePercent: real, volume: Option<string>)

  /** The side of an order in the trade dialog (`'BUY' | 'SELL'`). */
  datatype OrderType = Buy | Sell
}
